=== FILE: README.md ===
# CodeLens collaboration rooms and AI-review helpers, in Dafny

This project models two sequential pieces of the CodeLens server.

The first is the **real-time review-room registry** of `server/src/server.ts`.
The server keeps `activeRooms`, a JavaScript `Map` from review id to a `Map` from socket id to the participant
(`userId`, `username`, `color`). It handles six socket.io events: `join-review`, the four relays (`cursor-move`,
`code-change`, `selection-change`, `add-comment`) and `disconnect`. Each handler is a pure function
`Server -> Step` (module `Collab`). A `Step` holds the next state and the messages the handler emits, each with
the exact set of receiving sockets. The state has two parts:

- the registry, where JavaScript `Map` insertion order is kept (module `OrderedMap`);
- socket.io's channel membership, a map from review id to socket ids.

An invariant ties the channels to the registry. It holds from the initial state over every sequence of events, and
under it every broadcast target set is a set of registry keys. `generateUserColor` is module `Colors`.

The second is the **pure helpers of the AI service** in `server/src/services/ai.service.ts`:

- the issue mapping that follows `JSON.parse` in `parseAIResponse`, and its keyword fallback `fallbackParsing`
  (module `Insights`);
- `generateSummary` (module `Summary`);
- `getLineContext` (module `LineContext`).

JavaScript values that reach the mapping are modelled by `JsValues.JsValue`. That covers `||` defaulting,
truthiness, and the TypeError that a property read on `null` or `undefined` raises. The unchecked `as InsightType` and `as Severity` casts at `server/src/services/ai.service.ts:163-164`, to the
unions declared in `server/src/types/index.ts:65-73`, become `Tagged` values: either a known member of the union, or
the raw value that the cast let through.

Each operation has a partner:

- the issue mapping has an encoder and a round trip;
- the summary has a reader, with `ParseSummary(GenerateSummary(xs))` recovering the total and the itemised counts;
- the line window has an independent window description, and a corrected version;
- the disconnect sweep has a per-room reference description;
- the handlers have the registry/channel invariant.

Supporting modules:

- `Wrappers` (`Option`);
- `Text` (split and join with their round trips, ECMAScript `trim`, decimal rendering and reading);
- `FilterMap` (the "push a result for some elements" loop, with an index-level description).

Three behaviours of the code are easy to miss:

- the code does not validate join fields: any strings are accepted;
- the code lets one socket be registered in several rooms at once, and its disconnect sweeps all of them (`Collab.OneSocketTwoRooms`);
- the `active-users` snapshot a joiner receives lists the joiner as well (`Collab.SecondJoinerSeesBoth`).

## Model

| member | source | states |
|---|---|---|
| Colors.UserColor | server/src/server.ts:138-145 | the colour for any index is one of the twelve palette colours |
| Colors.SameColorIff | server/src/server.ts:138-145 | two indices get the same colour exactly when they are congruent modulo 12 (the twelve palette entries are distinct) |
| Colors.ColorsWrapAround | server/src/server.ts:138-145 | index i + 12 gets the colour of index i; indices 0 and 12 both get `#FF6B6B` |
| OrderedMap.Put | server/src/server.ts:72 | `Map.set` maps the key to the new value and changes no other key; a present key keeps its position, and a new key is appended to the insertion order |
| OrderedMap.Delete | server/src/server.ts:123 | `Map.delete` removes exactly that key; the order loses exactly its one position, and the other keys keep their relative order; an absent key changes nothing |
| Collab.OnJoinReview | server/src/server.ts:62-89 | a join sends two messages: `user-joined`, which never goes back to the joiner, and `active-users`, which goes to the joiner alone |
| Collab.JoinEffects | server/src/server.ts:62-89 | after a join: the room exists and maps the socket to {userId, username, colour for the room's size before the insert}; other sockets of the room and all other rooms are unchanged; a rejoin keeps the room's order and size, and a new socket is appended; the registry's review-id order is kept when the room already existed, and a new review id is appended to it; `user-joined` announces the joiner with that colour; `active-users` carries the snapshot of the room after the insert |
| Collab.Snapshot | server/src/server.ts:81-84 | the snapshot has one entry per participant of the room; its order and contents are stated by `Collab.SnapshotListsRoom` |
| Collab.RegisterKeepsInvariant | server/src/server.ts:63-79 | registering a non-empty room whose channel holds exactly its sockets keeps the registry and the channels in agreement |
| Collab.JoinKeepsInvariant | server/src/server.ts:63-79 | a join keeps the registry and the channels in agreement; `user-joined` reaches exactly the room's previously registered sockets other than the joiner; the room's sockets afterwards are the old ones plus the joiner |
| Collab.SnapshotListsRoom | server/src/server.ts:81-86 | the `active-users` list has each participant of the room exactly once, the i-th entry being the i-th socket in the room's insertion order, with the stored userId, username and colour |
| Collab.JoinAppendsToSnapshot | server/src/server.ts:69-86 | a new joiner's snapshot is the previous room's snapshot followed by the joiner's own entry, with colour index equal to the previous room size |
| Collab.OnCursorMove | server/src/server.ts:91-96 | a cursor relay changes no state, sends one message, and never sends it to the sender |
| Collab.OnCodeChange | server/src/server.ts:98-104 | a code relay changes no state, sends one message, and never sends it to the sender |
| Collab.OnSelectionChange | server/src/server.ts:106-111 | a selection relay changes no state, sends one message, and never sends it to the sender |
| Collab.OnAddComment | server/src/server.ts:113-115 | a comment changes no state and is sent once, with the payload unchanged |
| Collab.RelayRecipients | server/src/server.ts:91-115 | under the invariant: the three updates reach the room's registered sockets minus the sender and are tagged with the sender's socket id; a comment reaches all the room's registered sockets, the sender included, with the payload passed through |
| Collab.AfterLeaving | server/src/server.ts:121-132 | leaving a room removes exactly that socket; the room survives exactly when some other socket remains in it |
| Collab.Visit | server/src/server.ts:121-133 | one `forEach` callback emits at most one notice, and changes nothing when the visited room does not hold the socket |
| Collab.VisitEffects | server/src/server.ts:121-133 | one `forEach` callback changes only the visited room; that room ends as `AfterLeaving` says if it held the socket, and otherwise is unchanged; the callback emits a `user-left` notice exactly when the room held the socket |
| Collab.Sweep | server/src/server.ts:120-134 | the `forEach` sends at most one notice per visited room id; its effect on the rooms and its notices are stated by `Collab.SweepRooms` and `Collab.SweepNotices` |
| Collab.SweepRooms | server/src/server.ts:120-134 | sweeping distinct room ids in order leaves every visited room that held the socket as `AfterLeaving` says, and leaves every other room untouched, although the rooms are mutated while the sweep runs |
| Collab.SweepNotices | server/src/server.ts:120-129 | the sweep emits one notice per visited room that held the socket, in visiting order, each as the registry before the sweep describes it |
| Collab.SweepQuiet | server/src/server.ts:120-121 | a sweep that meets the socket in no room returns the registry unchanged and sends nothing |
| Collab.OnDisconnect | server/src/server.ts:117-135 | after a disconnect, no channel holds the socket; every room that held it ends as `AfterLeaving` says; rooms that did not hold it are unchanged |
| Collab.DisconnectRooms | server/src/server.ts:117-135 | a disconnect keeps the invariant (so no empty room survives), and no room holds the socket afterwards |
| Collab.DisconnectNotices | server/src/server.ts:120-129 | under the invariant: a disconnect sends `user-left {socketId, userId}` once per room that held the socket, in registry order, to exactly that room's remaining participants |
| Collab.DisconnectUnknownSocket | server/src/server.ts:120-121 | disconnecting a socket that is in no room leaves the state identical and emits nothing |
| Collab.HandleKeepsInvariant | server/src/server.ts:62-135 | every handler keeps the registry and the channels in agreement |
| Collab.RunKeepsInvariant | server/src/server.ts:62-135 | any sequence of events, from a state where the registry and the channels agree, keeps them in agreement |
| Collab.ReachableStatesAgree | server/src/server.ts:65-72 | in every state reachable from the start, every registered room is non-empty, and every channel holds exactly its room's sockets |
| Collab.SecondJoinerSeesBoth | server/src/server.ts:69-86 | in a room holding s1, a second joiner s2 receives `active-users` [s1 with `#FF6B6B`, s2 with the second colour]; `user-joined` goes to {s1} only |
| Collab.JoinTwice | server/src/server.ts:62-79 | from no rooms, one socket joining two different reviews creates exactly those two rooms, each holding only that socket, and the registry and channels agree |
| Collab.OneSocketTwoRooms | server/src/server.ts:62-134 | one socket can join two reviews and is registered in both; its disconnect removes it from both and deletes both rooms |
| Collab.RejoinStartsOver | server/src/server.ts:65-72 | after the only participant disconnects, the room is no longer registered, and the next joiner gets colour index 0 (`#FF6B6B`) |
| Insights.AsSeverity | server/src/services/ai.service.ts:164 | the cast yields a known severity exactly when the value is that union member's string, and otherwise carries the raw value |
| Insights.AsInsightType | server/src/services/ai.service.ts:163 | the cast yields a known insight type exactly when the value is that union member's string, and otherwise carries the raw value |
| Insights.SeverityCastKeepsValue | server/src/services/ai.service.ts:164 | the `as Severity` cast does not change the value |
| Insights.InsightTypeCastKeepsValue | server/src/services/ai.service.ts:163 | the `as InsightType` cast does not change the value |
| Insights.MapIssue | server/src/services/ai.service.ts:162-168 | reading fields of a `null` or `undefined` issue throws, and any other issue maps to an insight. `type` and `severity` are kept. `message` is kept when truthy and is otherwise `No description provided`. `line` and `suggestion` are kept when truthy and are otherwise `null` (so `0` becomes `null`) |
| Insights.MapIssues | server/src/services/ai.service.ts:162-168 | the map succeeds exactly when no issue is nullish; it then gives one insight per issue, in order, each as `MapIssue` says |
| Insights.IssuesOf | server/src/services/ai.service.ts:158-168 | a nullish parse result throws; missing or non-array `issues` gives the empty list; otherwise the result is the issue map |
| Insights.MapIssueIsCanonical | server/src/services/ai.service.ts:162-168 | every mapped insight has a non-empty message, and its line and suggestion are truthy or `null` |
| Insights.MapIssueRoundTrip | server/src/services/ai.service.ts:162-168 | mapping the JSON encoding of any insight of that shape gives the insight back |
| Insights.ReplyRoundTrip | server/src/services/ai.service.ts:158-168 | mapping an `{issues: [...]}` reply built from such insights returns exactly those insights, in order |
| Insights.Classify | server/src/services/ai.service.ts:190-217 | a line yields an insight exactly when its lowercase form mentions a security or performance keyword. Security wins: security/high with the security advice. Otherwise performance/medium with the performance advice. The line number is always `null`, and the message is the trimmed line |
| Insights.ClassifyIgnoresCase | server/src/services/ai.service.ts:191-209 | a line is classified exactly when one of the six keywords occurs in it up to ASCII case, and as a security insight exactly when one of the three security keywords does |
| Insights.ClassifyCanonical | server/src/services/ai.service.ts:193-215 | every insight the keyword scan yields is canonical; its trimmed message is not empty, since the line holds a keyword |
| Insights.FallbackParsing | server/src/services/ai.service.ts:181-221 | at most one insight per `'\n'`-separated line; the k-th insight is the classification of the k-th classifiable line, in input order; none has a line number |
| Insights.ParseAIResponse | server/src/services/ai.service.ts:149-176 | a failed parse, or a throw while reading the parsed value, falls back to the keyword scan of the raw text; otherwise the result is the issue mapping; `Insights.ParseAIResponseRoundTrip` is its partner |
| Insights.ParseAIResponseCanonical | server/src/services/ai.service.ts:149-176 | whichever path is taken, every returned insight is canonical: an unchecked type or severity never spells a union member, the message is not empty, and line and suggestion are truthy or `null` |
| Insights.ParseAIResponseRoundTrip | server/src/services/ai.service.ts:149-168 | a well-formed `{issues: [...]}` reply encoding canonical insights is returned as exactly those insights, in order, whatever the raw text; the keyword scan is not consulted |
| FilterMap.KeepIndexed | server/src/services/ai.service.ts:185-220 | the pushed results are, in order, the values of the partial map at exactly the indices where it is defined |
| Summary.CountSeverity | server/src/services/ai.service.ts:233-235 | counts at most all the insights, comparing the field's JavaScript value with the severity's spelling as `===` does |
| Summary.CountSeverityExtremes | server/src/services/ai.service.ts:233-235 | the count is zero exactly when no insight has that severity, and the list length exactly when every insight has it |
| Summary.UncheckedSpellingCounts | server/src/services/ai.service.ts:233 | `CountSeverity` compares the field's value as `===` does, so both encodings of `"critical"` in a severity field count as critical |
| Summary.Itemised | server/src/services/ai.service.ts:233-247 | the detail parts are critical, then high, then medium; each appears only with a positive count equal to that severity's number of insights; every such severity that occurs appears |
| Summary.GenerateSummary | server/src/services/ai.service.ts:226-252 | carries no contract of its own; its behaviour is stated by `Summary.SummaryEmptyIff`, `Summary.SummaryHeader`, `Summary.PartPlural`, `Summary.SummaryWithoutItems`, `Summary.SummaryRoundTrip` and `Summary.SummaryDeterminesCounts` |
| Summary.PartPlural | server/src/services/ai.service.ts:239-247 | each itemised part (critical, high or medium) reads `<count> <label> issue` (labels `critical`, `high-priority`, `medium`) and ends in `s` exactly when its count exceeds one |
| Summary.ItemisedExactly | server/src/services/ai.service.ts:239-247 | a severity is itemised exactly when it is critical, high or medium and occurs |
| Summary.SummaryEmptyIff | server/src/services/ai.service.ts:229-231 | the summary is `No issues found. Code looks good! ✅` exactly when the list is empty |
| Summary.SummaryHeader | server/src/services/ai.service.ts:249 | a non-empty list's summary starts with `Found N issue`, with N the list length, and the next character is `s` exactly when N > 1 |
| Summary.SummaryWithoutItems | server/src/services/ai.service.ts:233-249 | with no critical, high or medium insight, the summary ends at the colon: low, info and unrecognised severities count only towards N |
| Summary.ReadPartsRoundTrip | server/src/services/ai.service.ts:237-249 | the `', '`-joined rendering of any non-empty list of positive, itemisable parts reads back as exactly that list |
| Summary.SummaryRoundTrip | server/src/services/ai.service.ts:226-252 | reading any generated summary back gives the list length and the itemised counts |
| Summary.SummaryDeterminesCounts | server/src/services/ai.service.ts:233-249 | two lists with the same summary have the same length and the same critical, high and medium counts |
| Text.Split | server/src/services/ai.service.ts:188 | `split` with a one-character separator gives one more piece than there are separators, and no piece contains the separator; `Text.JoinSplit` and `Text.SplitJoin` relate it to `Text.Join` |
| Text.Join | server/src/services/ai.service.ts:269 | carries no contract of its own; `Text.JoinSplit` and `Text.SplitJoin` state it as the inverse of `Text.Split` |
| Text.JoinSplit | server/src/services/ai.service.ts:188 | joining the pieces of `split('\n')` with the separator gives the text back |
| Text.SplitJoin | server/src/services/ai.service.ts:269 | splitting a separator-free, non-empty list of rows joined by `'\n'` gives the rows back |
| Text.Trim | server/src/services/ai.service.ts:202 | `trim` removes a maximal run of ECMAScript whitespace at each end and keeps the middle |
| Text.TrimNonEmpty | server/src/services/ai.service.ts:202 | `trim` gives a non-empty result for any text holding a character that is not whitespace |
| Text.ToLower | server/src/services/ai.service.ts:191 | the lower-cased text has the same length, no ASCII capital, and agrees with the input character by character up to ASCII case |
| Text.ToLowerIdempotent | server/src/services/ai.service.ts:191 | lower-casing twice is lower-casing once |
| Text.ContainsIgnoringCase | server/src/services/ai.service.ts:191-196 | a keyword without capitals occurs in the lower-cased text exactly where it occurs in the text up to ASCII case: `toLowerCase().includes(kw)` is a case-insensitive search |
| Text.NatToStringValue | server/src/services/ai.service.ts:249 | the decimal rendering of a count denotes that count |
| Text.NatToStringInjective | server/src/services/ai.service.ts:249 | different counts render differently |
| Text.ReadNatAfterRender | server/src/services/ai.service.ts:249 | a rendered count followed by a non-digit reads back as that count and the rest |
| LineContext.GetLineContext | server/src/services/ai.service.ts:257-270 | carries no contract of its own; its behaviour is stated by `LineContext.ContextWindow`, `LineContext.TargetMarkedIffInRange` and `LineContext.NegativeTargetShowsLeadingLines` |
| LineContext.GetLineContextClamped | server/src/services/ai.service.ts:257-270 | carries no contract of its own; its behaviour is stated by `LineContext.ClampedContextWindow` and `LineContext.ClampedAgreesWhenInRange` |
| LineContext.Slice | server/src/services/ai.service.ts:263 | `Array.prototype.slice` with in-range bounds is the sub-range; a non-negative end bound not after the start gives nothing; a negative bound counts from the end (`LineContext.SliceBound`) |
| LineContext.ArrowMarksTarget | server/src/services/ai.service.ts:266-267 | a row starts with `→` exactly when its 1-based number is the target |
| LineContext.SplitRows | server/src/services/ai.service.ts:262-269 | the joined rows split back on `'\n'` into exactly the rows |
| LineContext.ContextWindow | server/src/services/ai.service.ts:257-270 | for lineNumber ≥ -3, the context is exactly the rows of lines `max(0, L-4) .. min(len, L+3)`, numbered `start + idx + 1`, and there are at most seven; for lineNumber ≤ -(len+3) it is empty, as intended |
| LineContext.TargetMarkedIffInRange | server/src/services/ai.service.ts:264-267 | for lineNumber ≥ -3 or ≤ -(len+3), some row carries the arrow exactly when the target is a line of the input |
| LineContext.NegativeTargetShowsLeadingLines | server/src/services/ai.service.ts:259-263 | as written, for -(len+3) < lineNumber ≤ -4 the negative end bound counts from the end, and the first `len + L + 3` lines are shown, none near the target |
| LineContext.NegativeTargetExample | server/src/services/ai.service.ts:259-263 | 20 lines and lineNumber -10: as written, 13 rows are shown; the corrected window is empty |
| LineContext.ClampedContextWindow | server/src/services/ai.service.ts:257-270 | with the end bound clamped at 0, the context is the intended window for every lineNumber |
| LineContext.ClampedAgreesWhenInRange | server/src/services/ai.service.ts:259-260 | the corrected version agrees with the code as written whenever lineNumber ≥ -3 or lineNumber ≤ -(len+3) |
| LineContext.OneLineFarTarget | server/src/services/ai.service.ts:259-263 | one line of code and lineNumber -4: `slice(0, -1)` is empty, so the context is empty |

## Left out

- Network calls to the hosted model, the prompt templates, and the controller and routes that call the service: `analyzeCode`, `getLineSuggestion`, `explainCode`, `buildAnalysisPrompt`, `server/src/controllers/ai.controller.ts`, `server/src/routes/ai.routes.ts`. These are foreign calls and string templating.
- `JSON.parse` and the code-fence stripping regular expression in `parseAIResponse`. The parse result is a parameter of `Insights.ParseAIResponse`, `None` when the parse throws.
- Text.ToLower: only ASCII letters are lowercased; `toLowerCase` also folds other Unicode capitals. The only non-ASCII capitals whose lower case holds an ASCII letter are U+212A KELVIN SIGN (to `k`) and U+0130 (to `i` followed by U+0307). No keyword contains `k` and none ends in `i`, so `Insights.Classify` agrees with `toLowerCase` on every line.
- JavaScript numbers are modelled as integers. NaN, infinities and fractions of `line` or `lineNumber` are not modelled, and neither are non-integer array indices.
- Every payload is modelled as an object whose `reviewId` is a string, and for a join so are `userId` and `username`. A `null` or `undefined` payload, on which the handler's destructuring throws, is not modelled, and neither is a missing or non-string field. The forwarded relay fields (`position`, `code`, `changes`, `selection`, `comment`) are arbitrary `JsValue`s.
- socket.io itself is modelled only through the computed target sets:
  - delivery and transport;
  - the private channel each socket has for its own id;
  - the fact that socket ids are never reused after a disconnect.
  Events from a socket after its disconnect are therefore allowed by `Collab.Run`.
- Collab.DisconnectRooms: states the rooms' contents after a disconnect, not the insertion order of the registry's surviving keys. That order only decides the order of later sweeps.
- LineContext.ContextWindow: stated for lineNumber ≥ -3 and for lineNumber ≤ -(len+3) only. For -(len+3) < lineNumber ≤ -4, the code as written shows a different window; see Findings.
- Console logging, the Express middleware, CORS and the health route. None of these affects the modelled state.
- The client pages and components. They are rendering and routing only.

## Findings

| source | as written | input that shows it | evidently intended | confidence | as-written member | corrected member |
|---|---|---|---|---|---|---|
| server/src/services/ai.service.ts:260 | `end = Math.min(lines.length, lineNumber + 3)` is negative for lineNumber ≤ -4, and `slice` then counts it from the end, so the first `len + lineNumber + 3` lines are rendered with no marker | 20 lines, lineNumber -10: 13 rows (lines 1-13) are shown | no line is within three of the target, so the context is empty (end clamped at 0, like start) | not executed | LineContext.NegativeTargetShowsLeadingLines | LineContext.ClampedContextWindow |

=== FILE: collab.dfy ===
/**
 * The real-time review rooms of the collaboration server: a registry from
 * review id to the participants present, keyed by socket id, and the
 * socket.io channels the server broadcasts on. Each handler is a function
 * from the server state and one incoming event to the next state and the
 * messages it sends, each with the set of sockets that receive it.
 *
 * socket.io's side of a broadcast is modelled by `channels`: the sockets that
 * joined each channel. The adapter forgets a channel once its last socket
 * leaves, and a disconnecting socket has left every channel before the
 * server's 'disconnect' handler runs.
 */
module Collab {
  import opened Wrappers
  import opened OrderedMap
  import opened JsValues
  import opened FilterMap
  import Colors

  type SocketId = string
  type ReviewId = string

  /** What the registry keeps about a participant. */
  datatype ActiveUser = ActiveUser(userId: string, username: string, color: string)

  /** The participants of one review, by socket id, in joining order. */
  type Room = OMap<ActiveUser>

  /** The server state: `activeRooms`, and socket.io's channel membership. */
  datatype Server = Server(rooms: OMap<Room>, channels: map<ReviewId, set<SocketId>>)

  /** A participant as listed in an 'active-users' message. */
  datatype UserEntry = UserEntry(socketId: SocketId, userId: string, username: string, color: string)

  /** The messages the server sends; payloads it only forwards stay opaque. */
  datatype Message =
    | UserJoined(socketId: SocketId, userId: string, username: string, color: string)
    | ActiveUsers(users: seq<UserEntry>)
    | CursorUpdate(socketId: SocketId, position: JsValue)
    | CodeUpdate(socketId: SocketId, code: JsValue, changes: JsValue)
    | SelectionUpdate(socketId: SocketId, selection: JsValue)
    | NewComment(comment: JsValue)
    | UserLeft(socketId: SocketId, userId: string)

  /** One message and the sockets that receive it. */
  datatype Emission = Emission(message: Message, recipients: set<SocketId>)

  /** The state after a handler and what it sent, in order. */
  datatype Step = Step(next: Server, emitted: seq<Emission>)

  /** The incoming events. */
  datatype Event =
    | JoinReview(socket: SocketId, reviewId: ReviewId, userId: string, username: string)
    | CursorMove(socket: SocketId, reviewId: ReviewId, position: JsValue)
    | CodeChange(socket: SocketId, reviewId: ReviewId, code: JsValue, changes: JsValue)
    | SelectionChange(socket: SocketId, reviewId: ReviewId, selection: JsValue)
    | AddComment(socket: SocketId, reviewId: ReviewId, comment: JsValue)
    | Disconnect(socket: SocketId)

  /** No rooms, no channels. */
  function Initial(): (s: Server)
    ensures s.rooms.Size() == 0 && s.channels == map[]
  {
    Server(Empty(), map[])
  }

  /** The sockets in channel `r`; none once socket.io has dropped it. */
  function Members(channels: map<ReviewId, set<SocketId>>, r: ReviewId): set<SocketId>
  {
    if r in channels then channels[r] else {}
  }

  /** The room registered for `r`, or an empty one. */
  function RoomOf(s: Server, r: ReviewId): (room: Room)
    ensures r !in s.rooms.values ==> room.Size() == 0
  {
    Lookup(s.rooms, r).GetOr(Empty())
  }

  /**
   * The registry and the channels agree: every registered room has a
   * participant, and each channel holds exactly the sockets of its room.
   */
  ghost predicate Invariant(s: Server)
  {
    && (forall r :: r in s.rooms.values ==> s.rooms.values[r].Size() > 0)
    && (forall r :: r in s.channels <==> r in s.rooms.values)
    && (forall r :: r in s.channels ==> s.channels[r] == s.rooms.values[r].values.Keys)
  }

  lemma MembersAreRoom(s: Server, r: ReviewId)
    requires Invariant(s)
    ensures Members(s.channels, r) == RoomOf(s, r).values.Keys
  {
  }

  // ---------------------------------------------------------------- join

  function Entry(sid: SocketId, u: ActiveUser): UserEntry
  {
    UserEntry(sid, u.userId, u.username, u.color)
  }

  /** `Array.from(roomUsers.entries())`, each entry flattened with its socket id. */
  function Snapshot(room: Room): (r: seq<UserEntry>)
    ensures |r| == room.Size()
  {
    seq(|room.order|, i requires 0 <= i < |room.order| => Entry(room.order[i], room.values[room.order[i]]))
  }

  /** A snapshot lists every participant of the room once, in joining order. */
  lemma SnapshotListsRoom(room: Room)
    ensures forall i :: 0 <= i < |Snapshot(room)| ==> Snapshot(room)[i].socketId == room.order[i]
    ensures forall i :: 0 <= i < |Snapshot(room)| ==>
              Snapshot(room)[i].socketId in room.values &&
              Snapshot(room)[i] == Entry(Snapshot(room)[i].socketId, room.values[Snapshot(room)[i].socketId])
    ensures forall i, j :: 0 <= i < j < |Snapshot(room)| ==> Snapshot(room)[i].socketId != Snapshot(room)[j].socketId
    ensures forall x :: x in room.values ==> exists i :: 0 <= i < |Snapshot(room)| && Snapshot(room)[i].socketId == x
  {
    var snap := Snapshot(room);
    forall x | x in room.values
      ensures exists i :: 0 <= i < |snap| && snap[i].socketId == x
    {
      var i := IndexIn(room.order, x);
      assert snap[i].socketId == x;
    }
  }

  /**
   * 'join-review': join the channel, create the room if absent, register the
   * socket with the colour for the room's current size, tell the others, and
   * send the joiner the whole room.
   */
  function OnJoinReview(s: Server, sid: SocketId, reviewId: ReviewId, userId: string, username: string): (step: Step)
    ensures |step.emitted| == 2
    ensures sid !in step.emitted[0].recipients
    ensures step.emitted[1].recipients == {sid}
  {
    var before := RoomOf(s, reviewId);
    var color := Colors.UserColor(before.Size());
    var after := Put(before, sid, ActiveUser(userId, username, color));
    var channels := s.channels[reviewId := Members(s.channels, reviewId) + {sid}];
    Step(Server(Put(s.rooms, reviewId, after), channels),
         [ Emission(UserJoined(sid, userId, username, color), Members(channels, reviewId) - {sid}),
           Emission(ActiveUsers(Snapshot(after)), {sid}) ])
  }

  /**
   * After a join the room exists and maps the socket to the given names and
   * the colour for the room's size before the insert; nothing else changes.
   * A rejoin keeps the room's order, a new socket is appended. The joiner is
   * announced with that colour and receives the room as it is afterwards.
   */
  lemma JoinEffects(s: Server, sid: SocketId, reviewId: ReviewId, userId: string, username: string)
    ensures var step := OnJoinReview(s, sid, reviewId, userId, username);
            var before := RoomOf(s, reviewId);
            var color := Colors.UserColor(before.Size());
            && reviewId in step.next.rooms.values
            && (reviewId in s.rooms.values ==> step.next.rooms.order == s.rooms.order)
            && (reviewId !in s.rooms.values ==> step.next.rooms.order == s.rooms.order + [reviewId])
            && Lookup(step.next.rooms.values[reviewId], sid) == Some(ActiveUser(userId, username, color))
            && (forall x :: x != sid ==> Lookup(step.next.rooms.values[reviewId], x) == Lookup(before, x))
            && (forall r :: r != reviewId ==> Lookup(step.next.rooms, r) == Lookup(s.rooms, r))
            && (sid in before.values ==> step.next.rooms.values[reviewId].order == before.order)
            && (sid !in before.values ==> step.next.rooms.values[reviewId].order == before.order + [sid])
            && step.emitted[0].message == UserJoined(sid, userId, username, color)
            && step.emitted[1].message == ActiveUsers(Snapshot(step.next.rooms.values[reviewId]))
  {
  }

  /** Registering a non-empty room whose channel holds exactly its sockets keeps the invariant. */
  lemma RegisterKeepsInvariant(s: Server, reviewId: ReviewId, room: Room)
    requires Invariant(s)
    requires room.Size() > 0
    ensures Invariant(Server(Put(s.rooms, reviewId, room), s.channels[reviewId := room.values.Keys]))
  {
    var rooms := Put(s.rooms, reviewId, room);
    var channels := s.channels[reviewId := room.values.Keys];
    assert rooms.values == s.rooms.values[reviewId := room];
    forall r | r in rooms.values
      ensures rooms.values[r].Size() > 0
    {
    }
    forall r
      ensures r in channels <==> r in rooms.values
    {
    }
    forall r | r in channels
      ensures channels[r] == rooms.values[r].values.Keys
    {
    }
  }

  /**
   * A join keeps the invariant; 'user-joined' reaches exactly the others
   * already registered in the room, and the room afterwards holds the joiner.
   */
  lemma JoinKeepsInvariant(s: Server, sid: SocketId, reviewId: ReviewId, userId: string, username: string)
    requires Invariant(s)
    ensures Invariant(OnJoinReview(s, sid, reviewId, userId, username).next)
    ensures OnJoinReview(s, sid, reviewId, userId, username).emitted[0].recipients
            == RoomOf(s, reviewId).values.Keys - {sid}
    ensures OnJoinReview(s, sid, reviewId, userId, username).next.rooms.values[reviewId].values.Keys
            == RoomOf(s, reviewId).values.Keys + {sid}
  {
    MembersAreRoom(s, reviewId);
    var before := RoomOf(s, reviewId);
    var after := Put(before, sid, ActiveUser(userId, username, Colors.UserColor(before.Size())));
    assert after.values.Keys == Members(s.channels, reviewId) + {sid};
    assert sid in after.order;
    RegisterKeepsInvariant(s, reviewId, after);
  }

  /** A new joiner's snapshot is the room as it was, followed by the joiner. */
  lemma JoinAppendsToSnapshot(s: Server, sid: SocketId, reviewId: ReviewId, userId: string, username: string)
    requires sid !in RoomOf(s, reviewId).values
    ensures OnJoinReview(s, sid, reviewId, userId, username).emitted[1].message
            == ActiveUsers(Snapshot(RoomOf(s, reviewId))
                           + [UserEntry(sid, userId, username, Colors.UserColor(RoomOf(s, reviewId).Size()))])
  {
    var before := RoomOf(s, reviewId);
    var after := OnJoinReview(s, sid, reviewId, userId, username).next.rooms.values[reviewId];
    var entry := UserEntry(sid, userId, username, Colors.UserColor(before.Size()));
    JoinEffects(s, sid, reviewId, userId, username);
    assert Snapshot(after) == Snapshot(before) + [entry] by {
      forall i | 0 <= i < |before.order|
        ensures Snapshot(after)[i] == Snapshot(before)[i]
      {
        assert after.order[i] == before.order[i] != sid;
        assert Lookup(after, before.order[i]) == Lookup(before, before.order[i]);
      }
      assert Snapshot(after)[|before.order|] == entry;
    }
  }

  // -------------------------------------------------------------- relays

  /** `socket.to(reviewId).emit(...)`: everyone in the channel but the sender. */
  function ToOthers(s: Server, sid: SocketId, reviewId: ReviewId, message: Message): (step: Step)
    ensures step.next == s && |step.emitted| == 1 && step.emitted[0].message == message
    ensures sid !in step.emitted[0].recipients
  {
    Step(s, [Emission(message, Members(s.channels, reviewId) - {sid})])
  }

  /** 'cursor-move', relayed as 'cursor-update'. */
  function OnCursorMove(s: Server, sid: SocketId, reviewId: ReviewId, position: JsValue): (step: Step)
    ensures step.next == s && |step.emitted| == 1 && sid !in step.emitted[0].recipients
  {
    ToOthers(s, sid, reviewId, CursorUpdate(sid, position))
  }

  /** 'code-change', relayed as 'code-update'. */
  function OnCodeChange(s: Server, sid: SocketId, reviewId: ReviewId, code: JsValue, changes: JsValue): (step: Step)
    ensures step.next == s && |step.emitted| == 1 && sid !in step.emitted[0].recipients
  {
    ToOthers(s, sid, reviewId, CodeUpdate(sid, code, changes))
  }

  /** 'selection-change', relayed as 'selection-update'. */
  function OnSelectionChange(s: Server, sid: SocketId, reviewId: ReviewId, selection: JsValue): (step: Step)
    ensures step.next == s && |step.emitted| == 1 && sid !in step.emitted[0].recipients
  {
    ToOthers(s, sid, reviewId, SelectionUpdate(sid, selection))
  }

  /** 'add-comment': `io.to(reviewId)`, the sender included when in the channel. */
  function OnAddComment(s: Server, sid: SocketId, reviewId: ReviewId, comment: JsValue): (step: Step)
    ensures step.next == s && |step.emitted| == 1
    ensures step.emitted[0].message == NewComment(comment)
  {
    Step(s, [Emission(NewComment(comment), Members(s.channels, reviewId))])
  }

  // ---------------------------------------------------------- disconnect

  /** Channel membership once `sid` has left every channel. */
  function LeftChannels(channels: map<ReviewId, set<SocketId>>, sid: SocketId): (r: map<ReviewId, set<SocketId>>)
    ensures forall x :: x in r ==> sid !in r[x] && r[x] != {}
  {
    map x | x in channels && channels[x] - {sid} != {} :: channels[x] - {sid}
  }

  /** The 'user-left' notice for room `r`, if `sid` is registered there. */
  function LeftNotice(rooms: OMap<Room>, sid: SocketId, channels: map<ReviewId, set<SocketId>>, r: ReviewId): Option<Emission>
  {
    match Lookup(rooms, r)
    case Some(room) =>
      if sid in room.values then Some(Emission(UserLeft(sid, room.values[sid].userId), Members(channels, r) - {sid}))
      else None
    case None => None
  }

  /** What becomes of a room when `sid` leaves: unchanged, reduced, or gone. */
  function AfterLeaving(room: Room, sid: SocketId): (r: Option<Room>)
    ensures r.Some? ==> r.value.values == room.values - {sid} && r.value.Size() > 0
    ensures r.None? <==> room.values.Keys <= {sid}
  {
    if sid !in room.values then
      assert room.order != [] ==> room.order[0] in room.values;
      if room.Size() == 0 then None else Some(room)
    else
      var d := Delete(room, sid);
      assert d.order != [] ==> d.order[0] in d.values;
      if d.Size() == 0 then None else Some(d)
  }

  /** `AfterLeaving` for the room registered under `r`. */
  function Leaving(rooms: OMap<Room>, r: ReviewId, sid: SocketId): Option<Room>
  {
    match Lookup(rooms, r)
    case Some(room) => AfterLeaving(room, sid)
    case None => None
  }

  /** The registry and the notices so far, threaded through `forEach`. */
  datatype Sweeping = Sweeping(rooms: OMap<Room>, emitted: seq<Emission>)

  /** `sid` is registered in room `r`. */
  predicate Holds(rooms: OMap<Room>, r: ReviewId, sid: SocketId)
  {
    r in rooms.values && sid in rooms.values[r].values
  }

  /** One `forEach` callback: leave room `r` if `sid` is in it, dropping the room once empty. */
  function Visit(rooms: OMap<Room>, r: ReviewId, sid: SocketId, channels: map<ReviewId, set<SocketId>>): (v: Sweeping)
    ensures |v.emitted| <= 1
    ensures !Holds(rooms, r, sid) ==> v == Sweeping(rooms, [])
  {
    if r in rooms.values && sid in rooms.values[r].values then
      var room := Delete(rooms.values[r], sid);
      var notice := Emission(UserLeft(sid, rooms.values[r].values[sid].userId), Members(channels, r) - {sid});
      if room.Size() == 0 then
        assert room.values == map[] by { assert forall k :: k in room.values ==> k in room.order; }
        Sweeping(Delete(rooms, r), [notice])
      else Sweeping(Put(rooms, r, room), [notice])
    else Sweeping(rooms, [])
  }

  /**
   * A visit replaces room `r` by what `Leaving` leaves of it when the room
   * holds the socket, touches no other room, and sends the notice
   * `LeftNotice` describes.
   */
  lemma VisitEffects(rooms: OMap<Room>, r: ReviewId, sid: SocketId, channels: map<ReviewId, set<SocketId>>)
    ensures var v := Visit(rooms, r, sid, channels);
            && Lookup(v.rooms, r) == (if Holds(rooms, r, sid) then Leaving(rooms, r, sid) else Lookup(rooms, r))
            && (forall x :: x != r ==> Lookup(v.rooms, x) == Lookup(rooms, x))
            && v.emitted == AtMostOne(LeftNotice(rooms, sid, channels, r))
  {
  }

  /** `activeRooms.forEach` over the keys `ids`, in order. */
  function Sweep(rooms: OMap<Room>, ids: seq<ReviewId>, sid: SocketId, channels: map<ReviewId, set<SocketId>>): (v: Sweeping)
    ensures |v.emitted| <= |ids|
    decreases |ids|
  {
    if |ids| == 0 then Sweeping(rooms, [])
    else
      var first := Visit(rooms, ids[0], sid, channels);
      var rest := Sweep(first.rooms, ids[1..], sid, channels);
      Sweeping(rest.rooms, first.emitted + rest.emitted)
  }

  /**
   * Sweeping distinct room ids leaves each visited room that held the socket
   * as `Leaving` says and every other room untouched.
   */
  lemma {:induction false} SweepRooms(rooms: OMap<Room>, ids: seq<ReviewId>, sid: SocketId, channels: map<ReviewId, set<SocketId>>)
    requires Distinct(ids)
    ensures forall r :: Lookup(Sweep(rooms, ids, sid, channels).rooms, r)
                        == if r in ids && Holds(rooms, r, sid) then Leaving(rooms, r, sid) else Lookup(rooms, r)
    decreases |ids|
  {
    if |ids| > 0 {
      var x := ids[0];
      var rest := ids[1..];
      assert ids == [x] + rest;
      assert Distinct(rest);
      var first := Visit(rooms, x, sid, channels);
      VisitEffects(rooms, x, sid, channels);
      SweepRooms(first.rooms, rest, sid, channels);
      forall r
        ensures Lookup(Sweep(rooms, ids, sid, channels).rooms, r)
                == if r in ids && Holds(rooms, r, sid) then Leaving(rooms, r, sid) else Lookup(rooms, r)
      {
        if r != x {
          assert Holds(first.rooms, r, sid) == Holds(rooms, r, sid);
          assert Leaving(first.rooms, r, sid) == Leaving(rooms, r, sid);
        } else {
          assert x !in rest;
        }
      }
    }
  }

  /** `LeftNotice` as a partial map over room ids. */
  function NoticeFor(rooms: OMap<Room>, sid: SocketId, channels: map<ReviewId, set<SocketId>>): ReviewId -> Option<Emission>
  {
    r => LeftNotice(rooms, sid, channels, r)
  }

  /**
   * A sweep over distinct room ids sends one notice per visited room that
   * held the socket, in visiting order, each as the registry before the
   * sweep describes it.
   */
  lemma {:induction false} SweepNotices(rooms: OMap<Room>, ids: seq<ReviewId>, sid: SocketId, channels: map<ReviewId, set<SocketId>>)
    requires Distinct(ids)
    ensures Sweep(rooms, ids, sid, channels).emitted == Keep(ids, NoticeFor(rooms, sid, channels))
    decreases |ids|
  {
    if |ids| > 0 {
      var x := ids[0];
      var rest := ids[1..];
      assert ids == [x] + rest;
      assert Distinct(rest);
      var first := Visit(rooms, x, sid, channels);
      VisitEffects(rooms, x, sid, channels);
      calc {
        Sweep(rooms, ids, sid, channels).emitted;
        first.emitted + Sweep(first.rooms, rest, sid, channels).emitted;
        == { SweepNotices(first.rooms, rest, sid, channels); }
        AtMostOne(LeftNotice(rooms, sid, channels, x)) + Keep(rest, NoticeFor(first.rooms, sid, channels));
        == { forall i | 0 <= i < |rest|
               ensures NoticeFor(first.rooms, sid, channels)(rest[i]) == NoticeFor(rooms, sid, channels)(rest[i])
             {
               assert rest[i] != x;
             }
             KeepCongruent(rest, NoticeFor(first.rooms, sid, channels), NoticeFor(rooms, sid, channels)); }
        AtMostOne(NoticeFor(rooms, sid, channels)(x)) + Keep(rest, NoticeFor(rooms, sid, channels));
        == { KeepCons(x, rest, NoticeFor(rooms, sid, channels)); }
        Keep([x] + rest, NoticeFor(rooms, sid, channels));
      }
    } else {
      assert Keep(ids, NoticeFor(rooms, sid, channels)) == [];
    }
  }

  /**
   * 'disconnect': socket.io has already taken the socket out of every
   * channel; then every room holding it, in registry order, loses it and
   * tells the remaining participants, and a room left empty is deleted.
   */
  function OnDisconnect(s: Server, sid: SocketId): (step: Step)
    ensures forall r :: r in step.next.channels ==> sid !in step.next.channels[r]
    ensures forall r :: Lookup(step.next.rooms, r) == if Holds(s.rooms, r, sid) then Leaving(s.rooms, r, sid) else Lookup(s.rooms, r)
  {
    var channels := LeftChannels(s.channels, sid);
    var swept := Sweep(s.rooms, s.rooms.order, sid, channels);
    SweepRooms(s.rooms, s.rooms.order, sid, channels);
    assert forall r :: Holds(s.rooms, r, sid) ==> r in s.rooms.order;
    Step(Server(swept.rooms, channels), swept.emitted)
  }

  /** The 'user-left' notice for room `r`, stated against the registry alone. */
  function Departure(rooms: OMap<Room>, sid: SocketId): ReviewId -> Option<Emission>
  {
    r => match Lookup(rooms, r)
         case Some(room) =>
           if sid in room.values then Some(Emission(UserLeft(sid, room.values[sid].userId), room.values.Keys - {sid}))
           else None
         case None => None
  }

  /** After leaving, a channel holds the room's other participants. */
  lemma LeftMembers(s: Server, sid: SocketId, r: ReviewId)
    requires Invariant(s)
    ensures Members(LeftChannels(s.channels, sid), r) == RoomOf(s, r).values.Keys - {sid}
  {
    MembersAreRoom(s, r);
  }

  lemma NoticeAgainstRegistry(s: Server, sid: SocketId, r: ReviewId)
    requires Invariant(s)
    ensures NoticeFor(s.rooms, sid, LeftChannels(s.channels, sid))(r) == Departure(s.rooms, sid)(r)
  {
    var channels := LeftChannels(s.channels, sid);
    assert NoticeFor(s.rooms, sid, channels)(r) == LeftNotice(s.rooms, sid, channels, r);
    if Holds(s.rooms, r, sid) {
      LeftMembers(s, sid, r);
      var room := s.rooms.values[r];
      assert Lookup(s.rooms, r) == Some(room);
      assert RoomOf(s, r) == room;
      assert Members(channels, r) - {sid} == room.values.Keys - {sid};
      var e := Emission(UserLeft(sid, room.values[sid].userId), room.values.Keys - {sid});
      assert LeftNotice(s.rooms, sid, channels, r) == Some(e);
      assert Departure(s.rooms, sid)(r) == Some(e);
    }
  }

  /**
   * A disconnect keeps the invariant, leaves every room as `Leaving` says,
   * and removes the socket from every room.
   */
  lemma DisconnectRooms(s: Server, sid: SocketId)
    requires Invariant(s)
    ensures Invariant(OnDisconnect(s, sid).next)
    ensures forall r :: Lookup(OnDisconnect(s, sid).next.rooms, r) == Leaving(s.rooms, r, sid)
    ensures forall r :: r in OnDisconnect(s, sid).next.rooms.values ==>
              sid !in OnDisconnect(s, sid).next.rooms.values[r].values
  {
    var next := OnDisconnect(s, sid).next;
    forall r
      ensures Lookup(next.rooms, r) == Leaving(s.rooms, r, sid)
    {
      if r in s.rooms.values && !Holds(s.rooms, r, sid) {
        assert s.rooms.values[r].Size() > 0;
        assert AfterLeaving(s.rooms.values[r], sid) == Some(s.rooms.values[r]);
      }
    }
    forall r | r in next.channels
      ensures r in next.rooms.values && next.channels[r] == next.rooms.values[r].values.Keys
    {
      assert Lookup(next.rooms, r) == Leaving(s.rooms, r, sid);
    }
    forall r | r in next.rooms.values
      ensures r in next.channels
    {
      assert Lookup(next.rooms, r) == Leaving(s.rooms, r, sid);
    }
  }

  /**
   * A disconnect sends one 'user-left' per room that held the socket, in
   * registry order, to that room's other participants.
   */
  lemma DisconnectNotices(s: Server, sid: SocketId)
    requires Invariant(s)
    ensures OnDisconnect(s, sid).emitted == Keep(s.rooms.order, Departure(s.rooms, sid))
  {
    var channels := LeftChannels(s.channels, sid);
    SweepNotices(s.rooms, s.rooms.order, sid, channels);
    forall i | 0 <= i < |s.rooms.order|
      ensures NoticeFor(s.rooms, sid, channels)(s.rooms.order[i]) == Departure(s.rooms, sid)(s.rooms.order[i])
    {
      NoticeAgainstRegistry(s, sid, s.rooms.order[i]);
    }
    KeepCongruent(s.rooms.order, NoticeFor(s.rooms, sid, channels), Departure(s.rooms, sid));
  }

  /** Disconnecting a socket that is in no room changes nothing and sends nothing. */
  lemma DisconnectUnknownSocket(s: Server, sid: SocketId)
    requires Invariant(s)
    requires forall r :: r in s.rooms.values ==> sid !in s.rooms.values[r].values
    ensures OnDisconnect(s, sid) == Step(s, [])
  {
    var channels := LeftChannels(s.channels, sid);
    forall r | r in s.channels
      ensures s.channels[r] - {sid} == s.channels[r] && s.channels[r] != {}
    {
      var room := s.rooms.values[r];
      assert room.order[0] in room.values;
    }
    assert channels == s.channels;
    SweepQuiet(s.rooms, s.rooms.order, sid, channels);
  }

  /** A sweep that meets the socket in no room returns the registry itself. */
  lemma {:induction false} SweepQuiet(rooms: OMap<Room>, ids: seq<ReviewId>, sid: SocketId, channels: map<ReviewId, set<SocketId>>)
    requires forall r :: r in rooms.values ==> sid !in rooms.values[r].values
    ensures Sweep(rooms, ids, sid, channels) == Sweeping(rooms, [])
    decreases |ids|
  {
    if |ids| > 0 {
      SweepQuiet(rooms, ids[1..], sid, channels);
    }
  }

  // -------------------------------------------------------------- events

  /** The handler for one event. */
  function Handle(s: Server, e: Event): Step
  {
    match e
    case JoinReview(sid, r, userId, username) => OnJoinReview(s, sid, r, userId, username)
    case CursorMove(sid, r, position) => OnCursorMove(s, sid, r, position)
    case CodeChange(sid, r, code, changes) => OnCodeChange(s, sid, r, code, changes)
    case SelectionChange(sid, r, selection) => OnSelectionChange(s, sid, r, selection)
    case AddComment(sid, r, comment) => OnAddComment(s, sid, r, comment)
    case Disconnect(sid) => OnDisconnect(s, sid)
  }

  /** The state after handling `events` in order. */
  function Run(s: Server, events: seq<Event>): Server
    decreases |events|
  {
    if |events| == 0 then s else Run(Handle(s, events[0]).next, events[1..])
  }

  /**
   * Relays change nothing and reach the room's registered participants:
   * all but the sender for the three updates, all of them for a comment.
   */
  lemma RelayRecipients(s: Server, e: Event)
    requires Invariant(s)
    requires !e.JoinReview? && !e.Disconnect?
    ensures Handle(s, e).next == s
    ensures |Handle(s, e).emitted| == 1
    ensures e.AddComment? ==> Handle(s, e).emitted[0].recipients == RoomOf(s, e.reviewId).values.Keys
    ensures !e.AddComment? ==> Handle(s, e).emitted[0].recipients == RoomOf(s, e.reviewId).values.Keys - {e.socket}
    ensures e.CursorMove? ==> Handle(s, e).emitted[0].message == CursorUpdate(e.socket, e.position)
    ensures e.CodeChange? ==> Handle(s, e).emitted[0].message == CodeUpdate(e.socket, e.code, e.changes)
    ensures e.SelectionChange? ==> Handle(s, e).emitted[0].message == SelectionUpdate(e.socket, e.selection)
    ensures e.AddComment? ==> Handle(s, e).emitted[0].message == NewComment(e.comment)
  {
    MembersAreRoom(s, e.reviewId);
  }

  /** Every handler keeps the invariant. */
  lemma HandleKeepsInvariant(s: Server, e: Event)
    requires Invariant(s)
    ensures Invariant(Handle(s, e).next)
  {
    match e
    case JoinReview(sid, r, userId, username) => JoinKeepsInvariant(s, sid, r, userId, username);
    case Disconnect(sid) => DisconnectRooms(s, sid);
    case _ =>
  }

  /** From any state where they agree, any sequence of events keeps the registry and the channels in agreement. */
  lemma {:induction false} RunKeepsInvariant(s: Server, events: seq<Event>)
    requires Invariant(s)
    ensures Invariant(Run(s, events))
    decreases |events|
  {
    if |events| > 0 {
      HandleKeepsInvariant(s, events[0]);
      RunKeepsInvariant(Handle(s, events[0]).next, events[1..]);
    }
  }

  lemma ReachableStatesAgree(events: seq<Event>)
    ensures Invariant(Run(Initial(), events))
    ensures forall r :: r in Run(Initial(), events).rooms.values ==> Run(Initial(), events).rooms.values[r].Size() > 0
  {
    RunKeepsInvariant(Initial(), events);
  }

  // ------------------------------------------------------------ examples

  /** The registry after socket "s1" joins review "r". */
  function OneJoined(): Server
  {
    OnJoinReview(Initial(), "s1", "r", "u1", "Ann").next
  }

  lemma OneJoinedState()
    ensures Invariant(OneJoined())
    ensures RoomOf(OneJoined(), "r").values.Keys == {"s1"}
    ensures RoomOf(OneJoined(), "r").Size() == 1
    ensures Snapshot(RoomOf(OneJoined(), "r")) == [UserEntry("s1", "u1", "Ann", "#FF6B6B")]
  {
    JoinKeepsInvariant(Initial(), "s1", "r", "u1", "Ann");
    JoinEffects(Initial(), "s1", "r", "u1", "Ann");
    JoinAppendsToSnapshot(Initial(), "s1", "r", "u1", "Ann");
    Colors.ColorsWrapAround(0);
  }

  /** The second participant's 'active-users' lists the first one and itself, in joining order. */
  lemma SecondJoinerSeesBoth()
    ensures OnJoinReview(OneJoined(), "s2", "r", "u2", "Bo").emitted[1]
            == Emission(ActiveUsers([UserEntry("s1", "u1", "Ann", "#FF6B6B"), UserEntry("s2", "u2", "Bo", Colors.UserColor(1))]), {"s2"})
    ensures OnJoinReview(OneJoined(), "s2", "r", "u2", "Bo").emitted[0].recipients == {"s1"}
  {
    OneJoinedState();
    JoinKeepsInvariant(OneJoined(), "s2", "r", "u2", "Bo");
    JoinEffects(OneJoined(), "s2", "r", "u2", "Bo");
    JoinAppendsToSnapshot(OneJoined(), "s2", "r", "u2", "Bo");
  }

  /** The registry after socket "s1" joins review "a" and then review "b". */
  function TwoRooms(): Server
  {
    OnJoinReview(OnJoinReview(Initial(), "s1", "a", "u1", "Ann").next, "s1", "b", "u1", "Ann").next
  }

  /** From no rooms, one socket joining two different reviews is the only participant of each. */
  lemma JoinTwice(sid: SocketId, a: ReviewId, b: ReviewId, userId: string, username: string)
    requires a != b
    ensures var s := OnJoinReview(OnJoinReview(Initial(), sid, a, userId, username).next, sid, b, userId, username).next;
            && Invariant(s)
            && s.rooms.values.Keys == {a, b}
            && s.rooms.values[a].values.Keys == {sid}
            && s.rooms.values[b].values.Keys == {sid}
  {
    var s1 := OnJoinReview(Initial(), sid, a, userId, username).next;
    JoinKeepsInvariant(Initial(), sid, a, userId, username);
    JoinEffects(Initial(), sid, a, userId, username);
    assert s1.rooms.values.Keys == {a};
    JoinKeepsInvariant(s1, sid, b, userId, username);
    JoinEffects(s1, sid, b, userId, username);
    var s2 := OnJoinReview(s1, sid, b, userId, username).next;
    assert Lookup(s2.rooms, a) == Lookup(s1.rooms, a);
    assert s2.rooms.values.Keys == {a, b} by {
      assert s2.rooms.values == s1.rooms.values[b := s2.rooms.values[b]];
    }
  }

  lemma TwoRoomsState()
    ensures Invariant(TwoRooms())
    ensures Holds(TwoRooms().rooms, "a", "s1") && Holds(TwoRooms().rooms, "b", "s1")
    ensures forall r :: r in TwoRooms().rooms.values ==> TwoRooms().rooms.values[r].values.Keys == {"s1"}
  {
    JoinTwice("s1", "a", "b", "u1", "Ann");
  }

  /** One socket may join two reviews; its disconnect then empties and removes both rooms. */
  lemma OneSocketTwoRooms()
    ensures Holds(TwoRooms().rooms, "a", "s1") && Holds(TwoRooms().rooms, "b", "s1")
    ensures OnDisconnect(TwoRooms(), "s1").next.rooms.values == map[]
  {
    var s2 := TwoRooms();
    var last := OnDisconnect(s2, "s1").next;
    TwoRoomsState();
    DisconnectRooms(s2, "s1");
    forall r
      ensures Lookup(last.rooms, r) == None
    {
      assert Lookup(last.rooms, r) == Leaving(s2.rooms, r, "s1");
    }
  }

  /** After the last participant leaves, a new joiner starts a fresh room with the first colour. */
  lemma RejoinStartsOver()
    ensures var gone := OnDisconnect(OnJoinReview(Initial(), "s1", "r", "u1", "Ann").next, "s1").next;
            && "r" !in gone.rooms.values
            && OnJoinReview(gone, "s2", "r", "u2", "Bo").emitted[0].message == UserJoined("s2", "u2", "Bo", "#FF6B6B")
  {
    var s1 := OnJoinReview(Initial(), "s1", "r", "u1", "Ann").next;
    JoinKeepsInvariant(Initial(), "s1", "r", "u1", "Ann");
    assert s1.rooms.values["r"].values.Keys == {"s1"};
    assert Leaving(s1.rooms, "r", "s1") == None;
    DisconnectRooms(s1, "s1");
    var gone := OnDisconnect(s1, "s1").next;
    assert Lookup(gone.rooms, "r") == None;
    assert RoomOf(gone, "r").Size() == 0;
    JoinEffects(gone, "s2", "r", "u2", "Bo");
    Colors.ColorsWrapAround(0);
  }
}

=== FILE: colors.dfy ===
/**
 * `generateUserColor` (server/src/server.ts:138-145): a participant's display
 * colour, chosen from a fixed palette of twelve by the participant's index.
 */
module Colors {

  const Palette: seq<string> := [
    "#FF6B6B", "#4ECDC4", "#45B7D1", "#FFA07A",
    "#98D8C8", "#F7DC6F", "#BB8FCE", "#85C1E2",
    "#F8B739", "#52B788", "#E76F51", "#2A9D8F"
  ]

  /** `generateUserColor(index)`; the index is a room size, so never negative. */
  function UserColor(index: nat): (c: string)
    ensures c in Palette
  {
    Palette[index % |Palette|]
  }

  /** The twelve palette entries are different colours. */
  lemma PaletteDistinct()
    ensures |Palette| == 12
    ensures forall i, j :: 0 <= i < j < |Palette| ==> Palette[i] != Palette[j]
  {
  }

  /** Two indices get the same colour exactly when they agree modulo twelve. */
  lemma SameColorIff(i: nat, j: nat)
    ensures UserColor(i) == UserColor(j) <==> i % 12 == j % 12
  {
    PaletteDistinct();
  }

  /** The thirteenth participant of a room gets the first participant's colour. */
  lemma ColorsWrapAround(i: nat)
    ensures UserColor(i + 12) == UserColor(i)
    ensures UserColor(12) == UserColor(0) == "#FF6B6B"
  {
    SameColorIff(i + 12, i);
  }
}

=== FILE: filtermap.dfy ===
/**
 * Keeping the defined results of a partial map over a sequence, in order:
 * the shape of a `for` loop that pushes a result for some elements only.
 */
module FilterMap {
  import opened Wrappers

  /** Indices, ascending, of the elements on which `f` is defined. */
  function DefinedAt<T, U>(xs: seq<T>, f: T -> Option<U>): (picked: seq<nat>)
    ensures |picked| <= |xs|
    ensures forall k :: 0 <= k < |picked| ==> picked[k] < |xs| && f(xs[picked[k]]).Some?
    ensures forall k, l :: 0 <= k < l < |picked| ==> picked[k] < picked[l]
    ensures forall i :: 0 <= i < |xs| && f(xs[i]).Some? ==> i in picked
    decreases |xs|
  {
    if |xs| == 0 then []
    else
      var init := xs[..|xs| - 1];
      var earlier := DefinedAt(init, f);
      assert forall k :: 0 <= k < |earlier| ==> xs[earlier[k]] == init[earlier[k]];
      if f(xs[|xs| - 1]).Some? then earlier + [|xs| - 1] else earlier
  }

  /** The results of `f` at one element: none or one. */
  function AtMostOne<U>(o: Option<U>): (r: seq<U>)
  {
    match o
    case Some(x) => [x]
    case None => []
  }

  /** The defined results of `f` over `xs`, in order. */
  function Keep<T, U>(xs: seq<T>, f: T -> Option<U>): (r: seq<U>)
    ensures |r| <= |xs|
    decreases |xs|
  {
    if |xs| == 0 then []
    else Keep(xs[..|xs| - 1], f) + AtMostOne(f(xs[|xs| - 1]))
  }

  /**
   * The k-th kept result is `f`'s value at the k-th index where `f` is
   * defined: nothing is dropped, added or reordered.
   */
  lemma {:induction false} KeepIndexed<T, U>(xs: seq<T>, f: T -> Option<U>)
    ensures |Keep(xs, f)| == |DefinedAt(xs, f)|
    ensures forall k :: 0 <= k < |Keep(xs, f)| ==> f(xs[DefinedAt(xs, f)[k]]) == Some(Keep(xs, f)[k])
    decreases |xs|
  {
    if |xs| > 0 {
      var init := xs[..|xs| - 1];
      var last := xs[|xs| - 1];
      KeepIndexed(init, f);
      var earlier := DefinedAt(init, f);
      var kept := Keep(init, f);
      assert Keep(xs, f) == kept + AtMostOne(f(last));
      assert DefinedAt(xs, f) == if f(last).Some? then earlier + [|xs| - 1] else earlier;
      forall k | 0 <= k < |kept|
        ensures f(xs[DefinedAt(xs, f)[k]]) == Some(Keep(xs, f)[k])
      {
        assert DefinedAt(xs, f)[k] == earlier[k];
        assert Keep(xs, f)[k] == kept[k];
        assert xs[earlier[k]] == init[earlier[k]];
      }
    }
  }

  /** Keeping over `xs + [last]` is keeping over `xs`, then `last`'s result. */
  lemma KeepSnoc<T, U>(xs: seq<T>, last: T, f: T -> Option<U>)
    ensures Keep(xs + [last], f) == Keep(xs, f) + AtMostOne(f(last))
  {
    assert (xs + [last])[..|xs|] == xs;
  }

  /** Keeping results front to back: the first element's result comes first. */
  lemma {:induction false} KeepCons<T, U>(x: T, xs: seq<T>, f: T -> Option<U>)
    ensures Keep([x] + xs, f) == AtMostOne(f(x)) + Keep(xs, f)
    decreases |xs|
  {
    if |xs| == 0 {
      calc {
        Keep([x] + xs, f);
        == { assert [x] + xs == [] + [x]; }
        Keep([] + [x], f);
        == { KeepSnoc([], x, f); }
        AtMostOne(f(x));
      }
    } else {
      var init := xs[..|xs| - 1];
      var last := xs[|xs| - 1];
      calc {
        Keep([x] + xs, f);
        == { assert [x] + xs == ([x] + init) + [last]; }
        Keep(([x] + init) + [last], f);
        == { KeepSnoc([x] + init, last, f); }
        Keep([x] + init, f) + AtMostOne(f(last));
        == { KeepCons(x, init, f); }
        AtMostOne(f(x)) + Keep(init, f) + AtMostOne(f(last));
        == { KeepSnoc(init, last, f); assert init + [last] == xs; }
        AtMostOne(f(x)) + Keep(xs, f);
      }
    }
  }

  /** Two partial maps that agree on every element keep the same results. */
  lemma {:induction false} KeepCongruent<T, U>(xs: seq<T>, f: T -> Option<U>, g: T -> Option<U>)
    requires forall i :: 0 <= i < |xs| ==> f(xs[i]) == g(xs[i])
    ensures Keep(xs, f) == Keep(xs, g)
    decreases |xs|
  {
    if |xs| > 0 {
      var init := xs[..|xs| - 1];
      assert forall i :: 0 <= i < |init| ==> init[i] == xs[i];
      KeepCongruent(init, f, g);
      assert f(xs[|xs| - 1]) == g(xs[|xs| - 1]);
    }
  }
}

=== FILE: insights.dfy ===
/**
 * AI insights as the server builds them from the language model's reply
 * (server/src/services/ai.service.ts): the mapping of a parsed JSON reply onto
 * insight records, with the defaults it fills in, and the keyword-based fallback
 * used when the reply is not usable JSON.
 */
module Insights {
  import opened Wrappers
  import opened Text
  import opened JsValues
  import opened FilterMap

  /** The `Severity` union of the shared types. */
  datatype Severity = Critical | High | Medium | Low | Info

  /** The `InsightType` union of the shared types. */
  datatype InsightType = Security | Performance | BestPractice | Bug | Style | Maintainability

  function SeverityName(s: Severity): string
  {
    match s
    case Critical => "critical"
    case High => "high"
    case Medium => "medium"
    case Low => "low"
    case Info => "info"
  }

  function InsightTypeName(t: InsightType): string
  {
    match t
    case Security => "security"
    case Performance => "performance"
    case BestPractice => "best-practice"
    case Bug => "bug"
    case Style => "style"
    case Maintainability => "maintainability"
  }

  /**
   * A field typed by an unchecked `as` cast. The value is kept as it was; `Known`
   * is used exactly when it is the string spelling of a member of the union.
   */
  datatype Tagged<E> = Known(tag: E) | Unchecked(raw: JsValue)

  /** `v as Severity`. */
  function AsSeverity(v: JsValue): (r: Tagged<Severity>)
    ensures forall s :: r == Known(s) <==> v == Str(SeverityName(s))
    ensures r.Unchecked? ==> r.raw == v
  {
    if v == Str("critical") then Known(Critical)
    else if v == Str("high") then Known(High)
    else if v == Str("medium") then Known(Medium)
    else if v == Str("low") then Known(Low)
    else if v == Str("info") then Known(Info)
    else Unchecked(v)
  }

  /** `v as InsightType`. */
  function AsInsightType(v: JsValue): (r: Tagged<InsightType>)
    ensures forall t :: r == Known(t) <==> v == Str(InsightTypeName(t))
    ensures r.Unchecked? ==> r.raw == v
  {
    if v == Str("security") then Known(Security)
    else if v == Str("performance") then Known(Performance)
    else if v == Str("best-practice") then Known(BestPractice)
    else if v == Str("bug") then Known(Bug)
    else if v == Str("style") then Known(Style)
    else if v == Str("maintainability") then Known(Maintainability)
    else Unchecked(v)
  }

  /** The JavaScript value a severity field holds. */
  function SeverityValue(t: Tagged<Severity>): JsValue
  {
    match t
    case Known(s) => Str(SeverityName(s))
    case Unchecked(v) => v
  }

  /** The JavaScript value an insight-type field holds. */
  function InsightTypeValue(t: Tagged<InsightType>): JsValue
  {
    match t
    case Known(k) => Str(InsightTypeName(k))
    case Unchecked(v) => v
  }

  /** The severity cast neither loses nor invents anything: the field holds the value read. */
  lemma SeverityCastKeepsValue(v: JsValue)
    ensures SeverityValue(AsSeverity(v)) == v
  {
  }

  /** The insight-type cast neither loses nor invents anything. */
  lemma InsightTypeCastKeepsValue(v: JsValue)
    ensures InsightTypeValue(AsInsightType(v)) == v
  {
  }

  /**
   * An insight without the server-assigned `id`, `review_id` and `created_at`.
   * `lineNumber` and `suggestion` hold `Null` for JSON null.
   */
  datatype Insight = Insight(
    insightType: Tagged<InsightType>,
    severity: Tagged<Severity>,
    lineNumber: JsValue,
    message: JsValue,
    suggestion: JsValue)

  const NoDescription: string := "No description provided"

  // ---------------------------------------------------------------------------
  // mapping a parsed reply (ai.service.ts:158-168)
  // ---------------------------------------------------------------------------

  /**
   * One element of `parsed.issues` mapped to an insight; `None` when reading its
   * properties throws, which happens exactly when the element is null.
   */
  function MapIssue(issue: JsValue): (r: Option<Insight>)
    ensures r.None? <==> Nullish(issue)
    ensures r.Some? ==> SeverityValue(r.value.severity) == Field(issue, "severity")
    ensures r.Some? ==> InsightTypeValue(r.value.insightType) == Field(issue, "type")
    ensures r.Some? ==> Truthy(r.value.message)
    ensures r.Some? ==> r.value.lineNumber == Null || Truthy(r.value.lineNumber)
    ensures r.Some? ==> r.value.suggestion == Null || Truthy(r.value.suggestion)
    ensures r.Some? ==> (Truthy(Field(issue, "message")) <==> r.value.message == Field(issue, "message"))
    ensures r.Some? && !Truthy(Field(issue, "message")) ==> r.value.message == Str(NoDescription)
    ensures r.Some? && Truthy(Field(issue, "line")) ==> r.value.lineNumber == Field(issue, "line")
    ensures r.Some? && !Truthy(Field(issue, "line")) ==> r.value.lineNumber == Null
    ensures r.Some? && Truthy(Field(issue, "suggestion")) ==> r.value.suggestion == Field(issue, "suggestion")
    ensures r.Some? && !Truthy(Field(issue, "suggestion")) ==> r.value.suggestion == Null
  {
    if Nullish(issue) then None
    else
      Some(Insight(
        AsInsightType(Field(issue, "type")),
        AsSeverity(Field(issue, "severity")),
        Or(Field(issue, "line"), Null),
        Or(Field(issue, "message"), Str(NoDescription)),
        Or(Field(issue, "suggestion"), Null)))
  }

  /**
   * `issues.map(...)`: one insight per element, in order, or `None` when some
   * element makes the callback throw.
   */
  function MapIssues(items: seq<JsValue>): (r: Option<seq<Insight>>)
    ensures r.Some? <==> forall i :: 0 <= i < |items| ==> !Nullish(items[i])
    ensures r.Some? ==> |r.value| == |items|
    ensures r.Some? ==> forall i :: 0 <= i < |items| ==> MapIssue(items[i]) == Some(r.value[i])
    decreases |items|
  {
    if |items| == 0 then Some([])
    else
      match MapIssue(items[0])
      case None => None
      case Some(first) =>
        match MapIssues(items[1..])
        case None => None
        case Some(rest) => Some([first] + rest)
  }

  /**
   * The insights read from a parsed reply; `None` when reading throws (the reply
   * is JSON `null`, or an issue is `null`).
   */
  function IssuesOf(parsed: JsValue): (r: Option<seq<Insight>>)
    ensures Nullish(parsed) ==> r.None?
    ensures !Nullish(parsed) && !Field(parsed, "issues").Arr? ==> r == Some([])
    ensures !Nullish(parsed) && Field(parsed, "issues").Arr? ==> r == MapIssues(Field(parsed, "issues").items)
  {
    if Nullish(parsed) then None
    else
      var issues := Field(parsed, "issues");
      if !Truthy(issues) || !issues.Arr? then Some([])
      else MapIssues(issues.items)
  }

  // ---------------------------------------------------------------------------
  // the round trip: a well-formed reply carries its insights unchanged
  // ---------------------------------------------------------------------------

  /** A tag as the cast produces it: an unchecked value never spells a union member. */
  predicate CanonicalSeverity(t: Tagged<Severity>)
  {
    t.Unchecked? ==> AsSeverity(t.raw) == t
  }

  predicate CanonicalInsightType(t: Tagged<InsightType>)
  {
    t.Unchecked? ==> AsInsightType(t.raw) == t
  }

  /** The insights the mapping can produce: canonical tags, defaults already applied. */
  predicate Canonical(i: Insight)
  {
    && CanonicalInsightType(i.insightType)
    && CanonicalSeverity(i.severity)
    && (i.lineNumber == Null || Truthy(i.lineNumber))
    && Truthy(i.message)
    && (i.suggestion == Null || Truthy(i.suggestion))
  }

  /** The issue object a model reply would carry for `i`. */
  function EncodeIssue(i: Insight): JsValue
  {
    Obj(map[
      "type" := InsightTypeValue(i.insightType),
      "severity" := SeverityValue(i.severity),
      "line" := i.lineNumber,
      "message" := i.message,
      "suggestion" := i.suggestion])
  }

  /** A reply whose `issues` array encodes `xs`. */
  function EncodeReply(xs: seq<Insight>): JsValue
  {
    Obj(map["issues" := Arr(seq(|xs|, k requires 0 <= k < |xs| => EncodeIssue(xs[k])))])
  }

  /** Every insight the mapping produces is canonical. */
  lemma MapIssueIsCanonical(issue: JsValue)
    requires MapIssue(issue).Some?
    ensures Canonical(MapIssue(issue).value)
  {
  }

  /** Mapping the encoding of a canonical insight gives it back. */
  lemma MapIssueRoundTrip(i: Insight)
    requires Canonical(i)
    ensures MapIssue(EncodeIssue(i)) == Some(i)
  {
    var e := EncodeIssue(i);
    assert Field(e, "type") == InsightTypeValue(i.insightType);
    assert Field(e, "severity") == SeverityValue(i.severity);
    assert Field(e, "line") == i.lineNumber;
    assert Field(e, "message") == i.message;
    assert Field(e, "suggestion") == i.suggestion;
  }

  /** A reply that encodes canonical insights is read back as exactly those insights, in order. */
  lemma ReplyRoundTrip(xs: seq<Insight>)
    requires forall k :: 0 <= k < |xs| ==> Canonical(xs[k])
    ensures IssuesOf(EncodeReply(xs)) == Some(xs)
  {
    var items := seq(|xs|, k requires 0 <= k < |xs| => EncodeIssue(xs[k]));
    assert Field(EncodeReply(xs), "issues") == Arr(items);
    forall k | 0 <= k < |xs|
      ensures MapIssue(items[k]) == Some(xs[k])
    {
      MapIssueRoundTrip(xs[k]);
    }
    var r := MapIssues(items);
    assert r.Some?;
    assert r.value == xs;
  }

  // ---------------------------------------------------------------------------
  // keyword fallback (ai.service.ts:181-221)
  // ---------------------------------------------------------------------------

  const SecurityAdvice: string := "Review security best practices for this code."
  const PerformanceAdvice: string := "Consider optimizing this code section."

  /** The keywords the scan looks for, by class. */
  const SecurityKeywords: set<string> := {"security", "vulnerability", "injection"}
  const PerformanceKeywords: set<string> := {"performance", "slow", "optimization"}
  const Keywords: set<string> := SecurityKeywords + PerformanceKeywords

  /** A lower-cased line that mentions security. */
  predicate MentionsSecurity(lower: string)
  {
    exists kw :: kw in SecurityKeywords && Contains(lower, kw)
  }

  /** A lower-cased line that mentions performance. */
  predicate MentionsPerformance(lower: string)
  {
    exists kw :: kw in PerformanceKeywords && Contains(lower, kw)
  }

  /**
   * The insight one reply line yields, if any. A security mention wins over a
   * performance mention on the same line.
   */
  function Classify(line: string): (r: Option<Insight>)
    ensures r.Some? <==> MentionsSecurity(ToLower(line)) || MentionsPerformance(ToLower(line))
    ensures r.Some? ==> r.value.lineNumber == Null && r.value.message == Str(Trim(line))
    ensures r.Some? ==> (r.value.insightType == Known(Security) <==> MentionsSecurity(ToLower(line)))
    ensures r.Some? && r.value.insightType == Known(Security) ==>
              r.value.severity == Known(High) && r.value.suggestion == Str(SecurityAdvice)
    ensures r.Some? && r.value.insightType != Known(Security) ==>
              r.value.insightType == Known(Performance) && r.value.severity == Known(Medium)
              && r.value.suggestion == Str(PerformanceAdvice)
  {
    var lower := ToLower(line);
    if MentionsSecurity(lower) then
      Some(Insight(Known(Security), Known(High), Null, Str(Trim(line)), Str(SecurityAdvice)))
    else if MentionsPerformance(lower) then
      Some(Insight(Known(Performance), Known(Medium), Null, Str(Trim(line)), Str(PerformanceAdvice)))
    else
      None
  }

  /**
   * `fallbackParsing(text)`: at most one insight per `'\n'`-separated line,
   * in input order, with no line number.
   */
  function FallbackParsing(text: string): (r: seq<Insight>)
    ensures |r| <= |Split(text, '\n')|
    ensures |r| == |DefinedAt(Split(text, '\n'), Classify)|
    ensures forall k :: 0 <= k < |r| ==>
              Classify(Split(text, '\n')[DefinedAt(Split(text, '\n'), Classify)[k]]) == Some(r[k])
    ensures forall k :: 0 <= k < |r| ==> r[k].lineNumber == Null
  {
    KeepIndexed(Split(text, '\n'), Classify);
    Keep(Split(text, '\n'), Classify)
  }

  // ---------------------------------------------------------------------------
  // parseAIResponse (ai.service.ts:149-176)
  // ---------------------------------------------------------------------------

  /**
   * `parseAIResponse(text)`. `parsed` is what `JSON.parse` made of the reply
   * after fence stripping, `None` when it threw. Any throw while reading the
   * parsed value also falls back to the keyword scan of the raw text.
   */
  function ParseAIResponse(text: string, parsed: Option<JsValue>): (r: seq<Insight>)
    ensures parsed.None? ==> r == FallbackParsing(text)
    ensures parsed.Some? && IssuesOf(parsed.value).None? ==> r == FallbackParsing(text)
    ensures parsed.Some? && IssuesOf(parsed.value).Some? ==> r == IssuesOf(parsed.value).value
  {
    match parsed
    case None => FallbackParsing(text)
    case Some(v) =>
      match IssuesOf(v)
      case Some(xs) => xs
      case None => FallbackParsing(text)
  }

  /**
   * A well-formed reply that encodes canonical insights is returned as exactly
   * those insights, in order, whatever the raw text was: the keyword scan is
   * not consulted.
   */
  lemma ParseAIResponseRoundTrip(text: string, xs: seq<Insight>)
    requires forall k :: 0 <= k < |xs| ==> Canonical(xs[k])
    ensures ParseAIResponse(text, Some(EncodeReply(xs))) == xs
  {
    ReplyRoundTrip(xs);
  }

  /**
   * The keyword scan is case-insensitive: a line is classified exactly when one
   * of the six keywords occurs in it up to ASCII case, and as a security insight
   * exactly when one of the three security keywords does.
   */
  lemma ClassifyIgnoresCase(line: string)
    ensures Classify(line).Some? <==>
              exists kw :: kw in Keywords && exists i :: 0 <= i <= |line| && OccursAtIgnoringCase(line, kw, i)
    ensures Classify(line).Some? ==>
              (Classify(line).value.insightType == Known(Security) <==>
                 exists kw :: kw in SecurityKeywords && exists i :: 0 <= i <= |line| && OccursAtIgnoringCase(line, kw, i))
  {
    forall kw | kw in Keywords
      ensures Contains(ToLower(line), kw) <==> exists i :: 0 <= i <= |line| && OccursAtIgnoringCase(line, kw, i)
    {
      ContainsIgnoringCase(line, kw);
    }
  }

  /** Every keyword starts with a small letter. */
  lemma KeywordsStartWithLetter(kw: string)
    requires kw in Keywords
    ensures |kw| > 0 && 'a' <= kw[0] <= 'z'
  {
  }

  /** A line holding a keyword, up to case, holds a character that is not whitespace. */
  lemma KeywordLineNotBlank(line: string, kw: string)
    requires kw in Keywords && Contains(ToLower(line), kw)
    ensures exists i :: 0 <= i < |line| && !IsJsWhitespace(line[i])
  {
    var lower := ToLower(line);
    var i :| 0 <= i <= |lower| && OccursAt(lower, kw, i);
    KeywordsStartWithLetter(kw);
    assert lower[i] == kw[0];
    assert SameIgnoringCase(lower[i], line[i]);
  }

  /** Every insight the keyword scan yields is canonical; its message is not empty, since it holds a keyword. */
  lemma ClassifyCanonical(line: string)
    requires Classify(line).Some?
    ensures Canonical(Classify(line).value)
  {
    var kw :| kw in Keywords && Contains(ToLower(line), kw);
    KeywordLineNotBlank(line, kw);
    var i :| 0 <= i < |line| && !IsJsWhitespace(line[i]);
    TrimNonEmpty(line, i);
  }

  /** Whichever way the reply is read, every insight returned is canonical. */
  lemma ParseAIResponseCanonical(text: string, parsed: Option<JsValue>)
    ensures forall k :: 0 <= k < |ParseAIResponse(text, parsed)| ==> Canonical(ParseAIResponse(text, parsed)[k])
  {
    var r := ParseAIResponse(text, parsed);
    if parsed.Some? && IssuesOf(parsed.value).Some? {
      var v := parsed.value;
      if !Field(v, "issues").Arr? {
        assert r == [];
      } else {
        var items := Field(v, "issues").items;
        forall k | 0 <= k < |r|
          ensures Canonical(r[k])
        {
          assert MapIssue(items[k]) == Some(r[k]);
          MapIssueIsCanonical(items[k]);
        }
      }
    } else {
      var lines := Split(text, '\n');
      var at := DefinedAt(lines, Classify);
      forall k | 0 <= k < |r|
        ensures Canonical(r[k])
      {
        assert Classify(lines[at[k]]) == Some(r[k]);
        ClassifyCanonical(lines[at[k]]);
      }
    }
  }
}

=== FILE: jsvalue.dfy ===
/**
 * The JavaScript values the AI service reads after `JSON.parse`: what JSON can
 * express, plus `undefined`, which is what reading an absent property yields.
 */
module JsValues {

  /**
   * A JavaScript value. Numbers are integers here; fractional numbers and NaN
   * are not modelled. An object is its own enumerable data properties.
   */
  datatype JsValue =
    | Undefined
    | Null
    | Bool(b: bool)
    | Num(n: int)
    | Str(s: string)
    | Arr(items: seq<JsValue>)
    | Obj(fields: map<string, JsValue>)

  /** `null` and `undefined`: reading a property of either throws a TypeError. */
  predicate Nullish(v: JsValue)
  {
    v.Undefined? || v.Null?
  }

  /** JavaScript truthiness: `false`, `0`, `""`, `null` and `undefined` are falsy. */
  predicate Truthy(v: JsValue)
  {
    match v
    case Undefined => false
    case Null => false
    case Bool(b) => b
    case Num(n) => n != 0
    case Str(s) => s != ""
    case Arr(_) => true
    case Obj(_) => true
  }

  /**
   * `v.key` for a value that is not nullish: the property when `v` is an object
   * that has it, `undefined` otherwise. The keys the server reads (`issues`,
   * `type`, `severity`, `line`, `message`, `suggestion`) are not inherited
   * properties of objects, arrays or strings, so only own fields matter.
   */
  function Field(v: JsValue, key: string): (r: JsValue)
    requires !Nullish(v)
    ensures v.Obj? && key in v.fields ==> r == v.fields[key]
    ensures !(v.Obj? && key in v.fields) ==> r == Undefined
  {
    if v.Obj? && key in v.fields then v.fields[key] else Undefined
  }

  /** `a || b`: `a` when it is truthy, `b` otherwise. */
  function Or(a: JsValue, b: JsValue): (r: JsValue)
    ensures Truthy(a) ==> r == a
    ensures !Truthy(a) ==> r == b
  {
    if Truthy(a) then a else b
  }
}

=== FILE: line_context.dfy ===
/**
 * `getLineContext` (server/src/services/ai.service.ts:257-270): the numbered
 * window of source lines shown around a target line, the target marked with an
 * arrow. The window bounds go through `Array.prototype.slice`, whose negative
 * bounds count from the end of the array.
 */
module LineContext {
  import opened Text

  const ContextSize: int := 3
  const Arrow: char := '\U{2192}'

  function Max(a: int, b: int): int { if a >= b then a else b }
  function Min(a: int, b: int): int { if a <= b then a else b }

  /** How `slice` turns one bound into an index: negative bounds count from the end. */
  function SliceBound(i: int, len: nat): (b: nat)
    ensures b <= len
    ensures 0 <= i <= len ==> b == i
    ensures i > len ==> b == len
    ensures i < 0 ==> b == Max(0, len + i)
  {
    if i < 0 then (if len + i < 0 then 0 else len + i)
    else if i > len then len
    else i
  }

  /** `xs.slice(start, end)`. */
  function Slice<T>(xs: seq<T>, start: int, end: int): (r: seq<T>)
    ensures 0 <= start <= end <= |xs| ==> r == xs[start..end]
    ensures 0 <= end <= start ==> r == []
  {
    var s := SliceBound(start, |xs|);
    var e := SliceBound(end, |xs|);
    if s >= e then [] else xs[s..e]
  }

  /** One displayed line: marker, space, 1-based number, colon, space, text. */
  function Row(target: int, n: nat, text: string): string
  {
    [if n == target then Arrow else ' '] + " " + NatToString(n) + ": " + text
  }

  /** Rows for `window`, whose first element is line `start + 1`. */
  function Rows(target: int, window: seq<string>, start: nat): (r: seq<string>)
    ensures |r| == |window|
    ensures forall k :: 0 <= k < |r| ==> r[k] == Row(target, start + k + 1, window[k])
  {
    seq(|window|, k requires 0 <= k < |window| => Row(target, start + k + 1, window[k]))
  }

  /** `getLineContext(lines, lineNumber)`, as the source computes it. */
  function GetLineContext(lines: seq<string>, lineNumber: int): string
  {
    var start := Max(0, lineNumber - ContextSize - 1);
    var end := Min(|lines|, lineNumber + ContextSize);
    Join(Rows(lineNumber, Slice(lines, start, end), start), "\n")
  }

  /**
   * The window the source evidently intends: the lines within three of the
   * target that exist, and nothing when there are none.
   */
  function GetLineContextClamped(lines: seq<string>, lineNumber: int): string
  {
    var start := Max(0, lineNumber - ContextSize - 1);
    var end := Max(0, Min(|lines|, lineNumber + ContextSize));
    Join(Rows(lineNumber, Slice(lines, start, end), start), "\n")
  }

  /** A row holds no line break when its text holds none. */
  lemma RowHasNoNewline(target: int, n: nat, text: string)
    requires '\n' !in text
    ensures '\n' !in Row(target, n, text)
  {
    var r := Row(target, n, text);
    var num := NatToString(n);
    assert r == [if n == target then Arrow else ' '] + " " + num + ": " + text;
    forall i | 0 <= i < |r|
      ensures r[i] != '\n'
    {
      if 2 <= i < 2 + |num| {
        assert r[i] == num[i - 2];
      } else if i >= 4 + |num| {
        assert r[i] == text[i - 4 - |num|];
      }
    }
  }

  /** The arrow marks a row exactly when the row is the target line. */
  lemma ArrowMarksTarget(target: int, n: nat, text: string)
    ensures Row(target, n, text)[0] == Arrow <==> n == target
  {
  }

  /** Splitting rendered rows apart again gives the rows, when the window is not empty. */
  lemma SplitRows(target: int, window: seq<string>, start: nat)
    requires |window| > 0
    requires forall i :: 0 <= i < |window| ==> '\n' !in window[i]
    ensures Split(Join(Rows(target, window, start), "\n"), '\n') == Rows(target, window, start)
  {
    var rows := Rows(target, window, start);
    forall k | 0 <= k < |rows|
      ensures '\n' !in rows[k]
    {
      RowHasNoNewline(target, start + k + 1, window[k]);
    }
    SplitJoin(rows, '\n');
  }

  /** The lines within three of `target` that exist, as a window `[lo, hi)`. */
  predicate ShowsWindow(out: string, lines: seq<string>, target: int)
  {
    var lo := Max(0, target - ContextSize - 1);
    var hi := Min(|lines|, target + ContextSize);
    && (hi <= lo ==> out == "")
    && (lo < hi ==>
          var rows := Split(out, '\n');
          && |rows| == hi - lo
          && forall k :: 0 <= k < |rows| ==> rows[k] == Row(target, lo + k + 1, lines[lo + k]))
  }

  /** The targets for which the code as written shows the intended window. */
  predicate WindowAsIntended(lines: seq<string>, target: int)
  {
    target + ContextSize >= 0 || |lines| + target + ContextSize <= 0
  }

  /**
   * For a target no lower than -3, the context is exactly the rows of lines
   * `max(0, L-4) .. min(len, L+3)`, numbered from 1, at most seven of them.
   * For a target so low that `len + L + 3 <= 0`, it is empty, as intended.
   */
  lemma ContextWindow(lines: seq<string>, target: int)
    requires forall i :: 0 <= i < |lines| ==> '\n' !in lines[i]
    requires WindowAsIntended(lines, target)
    ensures ShowsWindow(GetLineContext(lines, target), lines, target)
    ensures |Split(GetLineContext(lines, target), '\n')| <= 2 * ContextSize + 1
  {
    var lo := Max(0, target - ContextSize - 1);
    var hi := Min(|lines|, target + ContextSize);
    if lo < hi {
      var window := lines[lo..hi];
      assert Slice(lines, lo, hi) == window;
      SplitRows(target, window, lo);
    }
  }

  /** The corrected window is exactly the intended one for every target. */
  lemma ClampedContextWindow(lines: seq<string>, target: int)
    requires forall i :: 0 <= i < |lines| ==> '\n' !in lines[i]
    ensures ShowsWindow(GetLineContextClamped(lines, target), lines, target)
    ensures |Split(GetLineContextClamped(lines, target), '\n')| <= 2 * ContextSize + 1
  {
    var lo := Max(0, target - ContextSize - 1);
    var hi := Min(|lines|, target + ContextSize);
    if lo < hi {
      var window := lines[lo..hi];
      assert Slice(lines, lo, hi) == window;
      SplitRows(target, window, lo);
    }
  }

  /** The corrected window agrees with the source wherever the source's window is as intended. */
  lemma ClampedAgreesWhenInRange(lines: seq<string>, target: int)
    requires WindowAsIntended(lines, target)
    ensures GetLineContextClamped(lines, target) == GetLineContext(lines, target)
  {
  }

  /** Wherever the window is as intended, some row carries the arrow exactly when the target is a line of the input. */
  lemma TargetMarkedIffInRange(lines: seq<string>, target: int)
    requires forall i :: 0 <= i < |lines| ==> '\n' !in lines[i]
    requires WindowAsIntended(lines, target)
    ensures var rows := Split(GetLineContext(lines, target), '\n');
            (exists k :: 0 <= k < |rows| && |rows[k]| > 0 && rows[k][0] == Arrow) <==> 1 <= target <= |lines|
  {
    ContextWindow(lines, target);
    var lo := Max(0, target - ContextSize - 1);
    var hi := Min(|lines|, target + ContextSize);
    var rows := Split(GetLineContext(lines, target), '\n');
    if 1 <= target <= |lines| {
      var k := target - 1 - lo;
      assert rows[k] == Row(target, target, lines[target - 1]);
    }
    if exists k :: 0 <= k < |rows| && |rows[k]| > 0 && rows[k][0] == Arrow {
      var k :| 0 <= k < |rows| && |rows[k]| > 0 && rows[k][0] == Arrow;
      if lo < hi {
        ArrowMarksTarget(target, lo + k + 1, lines[lo + k]);
      } else {
        assert rows == [""];
      }
    }
  }

  /**
   * As written, a target below -3 makes the end bound negative, and `slice`
   * then counts it from the end: the first `len + L + 3` lines are shown,
   * numbered from 1, none marked, although none is within three of the target.
   */
  lemma NegativeTargetShowsLeadingLines(lines: seq<string>, target: int)
    requires forall i :: 0 <= i < |lines| ==> '\n' !in lines[i]
    requires target + ContextSize < 0 < |lines| + target + ContextSize
    ensures var rows := Split(GetLineContext(lines, target), '\n');
            && |rows| == |lines| + target + ContextSize
            && forall k :: 0 <= k < |rows| ==> rows[k] == Row(target, k + 1, lines[k])
  {
    var hi := |lines| + target + ContextSize;
    assert Slice(lines, 0, target + ContextSize) == lines[..hi];
    SplitRows(target, lines[..hi], 0);
  }

  /** A concrete instance: twenty lines, target -10, thirteen lines shown. */
  lemma NegativeTargetExample(lines: seq<string>)
    requires |lines| == 20
    requires forall i :: 0 <= i < |lines| ==> '\n' !in lines[i]
    ensures |Split(GetLineContext(lines, -10), '\n')| == 13
    ensures |Split(GetLineContextClamped(lines, -10), '\n')| == 1
    ensures GetLineContextClamped(lines, -10) == ""
  {
    NegativeTargetShowsLeadingLines(lines, -10);
    ClampedContextWindow(lines, -10);
  }

  /** One line of code and target -4: `slice(0, -1)` is empty, and so is the context. */
  lemma OneLineFarTarget(line: string)
    requires '\n' !in line
    ensures GetLineContext([line], -4) == ""
  {
    ContextWindow([line], -4);
  }
}

=== FILE: ordered_map.dfy ===
/**
 * JavaScript's `Map` with string keys, as the registry uses it: a lookup table
 * plus the insertion order of its keys. `Put` on a present key replaces the
 * value and keeps the key's position; on a new key it appends. `Delete` drops
 * the key and keeps the order of the others.
 */
module OrderedMap {
  import opened Wrappers

  /** Keys in insertion order, and the value of each key. */
  datatype Entries<V> = Entries(order: seq<string>, values: map<string, V>) {

    /** The order lists each key of the table exactly once. */
    ghost predicate Valid()
    {
      && Distinct(order)
      && (forall k :: k in values <==> k in order)
    }

    /** `map.size`. */
    function Size(): nat
    {
      |order|
    }
  }

  /** A well-formed map. */
  type OMap<V> = m: Entries<V> | m.Valid() witness Entries([], map[])

  function Empty<V>(): (r: OMap<V>)
    ensures r.Size() == 0 && r.values == map[]
  {
    Entries([], map[])
  }

  /** `map.get(k)`, `None` for an absent key. */
  function Lookup<V>(m: OMap<V>, k: string): (r: Option<V>)
    ensures r.Some? <==> k in m.values
    ensures r.Some? ==> r.value == m.values[k]
  {
    if k in m.values then Some(m.values[k]) else None
  }

  /** `map.set(k, v)`. */
  function Put<V>(m: OMap<V>, k: string, v: V): (r: OMap<V>)
    ensures r.values == m.values[k := v]
    ensures k in m.values ==> r.order == m.order
    ensures k !in m.values ==> r.order == m.order + [k]
  {
    if k in m.values then Entries(m.order, m.values[k := v])
    else Entries(m.order + [k], m.values[k := v])
  }

  /** Position of `k` in a sequence that holds it. */
  function IndexIn(s: seq<string>, k: string): (i: nat)
    requires k in s
    ensures i < |s| && s[i] == k
    ensures forall j :: 0 <= j < i ==> s[j] != k
  {
    if s[0] == k then 0 else 1 + IndexIn(s[1..], k)
  }

  /** No element occurs twice. */
  ghost predicate Distinct(s: seq<string>)
  {
    forall i, j :: 0 <= i < j < |s| ==> s[i] != s[j]
  }

  /** `s` without the occurrences of `k`. */
  function Without(s: seq<string>, k: string): (r: seq<string>)
    ensures forall x :: x in r <==> x in s && x != k
    ensures k !in s ==> r == s
    decreases |s|
  {
    if |s| == 0 then []
    else if s[0] == k then Without(s[1..], k)
    else
      assert k !in s ==> s == [s[0]] + s[1..];
      [s[0]] + Without(s[1..], k)
  }

  /** Removing a key from a repetition-free order removes exactly its one position. */
  lemma {:induction false} WithoutDistinct(s: seq<string>, k: string)
    requires Distinct(s)
    ensures Distinct(Without(s, k))
    ensures k in s ==> Without(s, k) == s[..IndexIn(s, k)] + s[IndexIn(s, k) + 1..]
    decreases |s|
  {
    if |s| > 0 {
      WithoutDistinct(s[1..], k);
      if s[0] == k {
        assert k !in s[1..];
        assert s[..0] + s[1..] == s[1..];
      } else {
        var r := [s[0]] + Without(s[1..], k);
        assert s[0] !in Without(s[1..], k);
        if k in s {
          var i := IndexIn(s[1..], k);
          assert s[1..][..i] == s[1..i + 1];
          assert s[1..][i + 1..] == s[i + 2..];
          assert [s[0]] + s[1..i + 1] == s[..i + 1];
        }
      }
    }
  }

  /** `map.delete(k)`. */
  function Delete<V>(m: OMap<V>, k: string): (r: OMap<V>)
    ensures r.values == m.values - {k}
    ensures k !in m.values ==> r == m
    ensures k in m.values ==>
              r.order == m.order[..IndexIn(m.order, k)] + m.order[IndexIn(m.order, k) + 1..]
    ensures k in m.values ==> r.Size() == m.Size() - 1
  {
    WithoutDistinct(m.order, k);
    var r := Entries(Without(m.order, k), m.values - {k});
    assert forall x :: x in r.values <==> x in r.order;
    r
  }
}

=== FILE: summary.dfy ===
/**
 * `generateSummary` (server/src/services/ai.service.ts:226-252): the one-line
 * summary of an analysis, and a reader that recovers from a summary the total
 * and the itemised severity counts it was built from.
 */
module Summary {
  import opened Wrappers
  import opened Text
  import opened Insights
  import opened JsValues

  const NoIssues: string := "No issues found. Code looks good! \U{2705}"

  /** The insight's severity field holds the string spelling of `s`. */
  predicate HasSeverity(i: Insight, s: Severity)
  {
    SeverityValue(i.severity) == Str(SeverityName(s))
  }

  /**
   * `insights.filter((i) => i.severity === s).length`: the comparison is on the
   * field's value, so an unchecked field holding `"critical"` counts as critical.
   */
  function CountSeverity(xs: seq<Insight>, s: Severity): (n: nat)
    ensures n <= |xs|
  {
    if |xs| == 0 then 0
    else (if HasSeverity(xs[0], s) then 1 else 0) + CountSeverity(xs[1..], s)
  }

  /**
   * The count is zero exactly when no insight has that severity, and the whole
   * length exactly when every insight has it.
   */
  lemma {:induction false} CountSeverityExtremes(xs: seq<Insight>, s: Severity)
    ensures CountSeverity(xs, s) == 0 <==> forall k :: 0 <= k < |xs| ==> !HasSeverity(xs[k], s)
    ensures CountSeverity(xs, s) == |xs| <==> forall k :: 0 <= k < |xs| ==> HasSeverity(xs[k], s)
    decreases |xs|
  {
    if |xs| > 0 {
      CountSeverityExtremes(xs[1..], s);
      assert forall k :: 1 <= k < |xs| ==> xs[k] == xs[1..][k - 1];
    }
  }

  /** An unchecked severity field that holds the string `"critical"` is counted as critical. */
  lemma UncheckedSpellingCounts()
    ensures CountSeverity([Insight(Known(Bug), Unchecked(Str("critical")), Null, Str("m"), Null)], Critical) == 1
  {
    var xs := [Insight(Known(Bug), Unchecked(Str("critical")), Null, Str("m"), Null)];
    assert HasSeverity(xs[0], Critical);
    assert CountSeverity(xs[1..], Critical) == 0;
  }

  /** The severities the summary itemises, and their order in it. */
  predicate Itemisable(s: Severity)
  {
    s == Critical || s == High || s == Medium
  }

  function Rank(s: Severity): nat
  {
    match s
    case Critical => 0
    case High => 1
    case Medium => 2
    case Low => 3
    case Info => 4
  }

  /** How an itemised severity is named in the summary. */
  function Label(s: Severity): string
  {
    match s
    case Critical => "critical"
    case High => "high-priority"
    case _ => "medium"
  }

  /** One itemised count: `count` insights of severity `severity`. */
  datatype Part = Part(count: nat, severity: Severity)

  /** The plural suffix of a count. */
  function Plural(n: nat): string
  {
    if n > 1 then "s" else ""
  }

  /** Text after the number of a part, e.g. `" critical issues"`. */
  function PartTail(n: nat, s: Severity): string
  {
    " " + Label(s) + " issue" + Plural(n)
  }

  function RenderPart(p: Part): string
  {
    NatToString(p.count) + PartTail(p.count, p.severity)
  }

  /** A part reads `<count> <label> issue`, with a trailing `s` exactly when the count exceeds one. */
  lemma PartPlural(p: Part)
    requires Itemisable(p.severity)
    ensures StartsWith(RenderPart(p), NatToString(p.count) + " " + Label(p.severity) + " issue")
    ensures RenderPart(p)[|RenderPart(p)| - 1] == 's' <==> p.count > 1
  {
    var stem := NatToString(p.count) + " " + Label(p.severity) + " issue";
    assert RenderPart(p) == stem + Plural(p.count);
    assert RenderPart(p)[..|stem|] == stem;
  }

  function RenderParts(ps: seq<Part>): (r: seq<string>)
    ensures |r| == |ps|
  {
    if |ps| == 0 then [] else [RenderPart(ps[0])] + RenderParts(ps[1..])
  }

  function ItemFor(xs: seq<Insight>, s: Severity): seq<Part>
  {
    var n := CountSeverity(xs, s);
    if n > 0 then [Part(n, s)] else []
  }

  /**
   * The itemised counts of a list: one part per itemisable severity that occurs,
   * critical before high before medium. Low, info and unrecognised severities
   * are never itemised.
   */
  function Itemised(xs: seq<Insight>): (r: seq<Part>)
    ensures forall k :: 0 <= k < |r| ==>
              Itemisable(r[k].severity) && r[k].count > 0 && r[k].count == CountSeverity(xs, r[k].severity)
    ensures forall k, l :: 0 <= k < l < |r| ==> Rank(r[k].severity) < Rank(r[l].severity)
    ensures forall s :: Itemisable(s) && CountSeverity(xs, s) > 0 ==>
              exists k :: 0 <= k < |r| && r[k].severity == s
  {
    var r := ItemFor(xs, Critical) + ItemFor(xs, High) + ItemFor(xs, Medium);
    assert forall s :: Itemisable(s) && CountSeverity(xs, s) > 0 ==> Part(CountSeverity(xs, s), s) in r;
    r
  }

  /** The text before the itemised counts. */
  function Header(n: nat): string
  {
    "Found " + NatToString(n) + " issue" + Plural(n) + ": "
  }

  /** `generateSummary(insights)`. */
  function GenerateSummary(xs: seq<Insight>): string
  {
    if |xs| == 0 then NoIssues
    else Header(|xs|) + Join(RenderParts(Itemised(xs)), ", ")
  }

  // ---------------------------------------------------------------------------
  // reading a summary back
  // ---------------------------------------------------------------------------

  /** What a summary states: the number of insights and the itemised counts. */
  datatype Facts = Facts(total: nat, parts: seq<Part>)

  /** Reads the label of a part with count `n` from the front of `s`. */
  function ReadLabel(n: nat, s: string): (r: Option<(Severity, string)>)
    ensures r.Some? ==> |r.value.1| < |s|
  {
    if StartsWith(s, PartTail(n, Critical)) then Some((Critical, s[|PartTail(n, Critical)|..]))
    else if StartsWith(s, PartTail(n, High)) then Some((High, s[|PartTail(n, High)|..]))
    else if StartsWith(s, PartTail(n, Medium)) then Some((Medium, s[|PartTail(n, Medium)|..]))
    else None
  }

  /** Reads one part from the front of `s`: its count and label, and what follows. */
  function ReadPart(s: string): (r: Option<(Part, string)>)
    ensures r.Some? ==> |r.value.1| < |s|
  {
    match ReadNat(s)
    case None => None
    case Some((n, rest)) =>
      if n == 0 || |rest| >= |s| then None
      else
        match ReadLabel(n, rest)
        case None => None
        case Some((sev, after)) => Some((Part(n, sev), after))
  }

  /** Reads a non-empty `", "`-separated list of parts making up all of `s`. */
  function ReadParts(s: string): Option<seq<Part>>
    decreases |s|
  {
    match ReadPart(s)
    case None => None
    case Some((p, after)) =>
      if after == "" then Some([p])
      else if !StartsWith(after, ", ") then None
      else
        match ReadParts(after[2..])
        case None => None
        case Some(more) => Some([p] + more)
  }

  /** Reads the itemised counts after the colon: nothing, or a list of parts. */
  function ReadDetail(s: string): Option<seq<Part>>
  {
    if s == "" then Some([]) else ReadParts(s)
  }

  /** Reads what follows `"Found "`: the total, the plural suffix, the colon, the details. */
  function ReadCounted(s: string): Option<Facts>
  {
    match ReadNat(s)
    case None => None
    case Some((n, rest)) =>
      var tail := " issue" + Plural(n) + ": ";
      if n == 0 || !StartsWith(rest, tail) then None
      else
        match ReadDetail(rest[|tail|..])
        case None => None
        case Some(parts) => Some(Facts(n, parts))
  }

  /** Reads a summary; `None` when `s` is not shaped like one. */
  function ParseSummary(s: string): Option<Facts>
  {
    if s == NoIssues then Some(Facts(0, []))
    else if !StartsWith(s, "Found ") then None
    else ReadCounted(s[6..])
  }

  lemma ReadLabelRoundTrip(n: nat, sev: Severity, after: string)
    requires Itemisable(sev)
    ensures ReadLabel(n, PartTail(n, sev) + after) == Some((sev, after))
  {
    var s := PartTail(n, sev) + after;
    assert s[..|PartTail(n, sev)|] == PartTail(n, sev);
    assert s[|PartTail(n, sev)|..] == after;
    assert s[1] == Label(sev)[0];
    if sev != Critical {
      assert !StartsWith(s, PartTail(n, Critical)) by {
        assert PartTail(n, Critical)[1] == 'c';
      }
    }
    if sev == Medium {
      assert !StartsWith(s, PartTail(n, High)) by {
        assert PartTail(n, High)[1] == 'h';
      }
    }
  }

  /** Reading the rendering of a single part, followed by `after`, gives the part back. */
  lemma ReadPartRoundTrip(p: Part, after: string)
    requires p.count > 0 && Itemisable(p.severity)
    ensures ReadNat(RenderPart(p) + after) == Some((p.count, PartTail(p.count, p.severity) + after))
    ensures ReadLabel(p.count, PartTail(p.count, p.severity) + after) == Some((p.severity, after))
  {
    var tail := PartTail(p.count, p.severity);
    assert RenderPart(p) + after == NatToString(p.count) + (tail + after);
    assert (tail + after)[0] == ' ';
    ReadNatAfterRender(p.count, tail + after);
    ReadLabelRoundTrip(p.count, p.severity, after);
  }

  /** Reading a rendered part, followed by `after`, gives the part and `after` back. */
  lemma ReadPartFront(p: Part, after: string)
    requires p.count > 0 && Itemisable(p.severity)
    ensures ReadPart(RenderPart(p) + after) == Some((p, after))
  {
    ReadPartRoundTrip(p, after);
    assert |RenderPart(p) + after| > |PartTail(p.count, p.severity) + after|;
  }

  /** Reading a single rendered part gives it back. */
  lemma ReadPartsSingle(p: Part)
    requires p.count > 0 && Itemisable(p.severity)
    ensures ReadParts(RenderPart(p)) == Some([p])
  {
    assert RenderPart(p) + "" == RenderPart(p);
    ReadPartFront(p, "");
  }

  /** A rendered part and a separator in front of `rest` are read as that part in front of what `rest` reads as. */
  lemma ReadPartsCons(p: Part, rest: string)
    requires p.count > 0 && Itemisable(p.severity)
    ensures ReadParts(RenderPart(p) + (", " + rest))
            == if ReadParts(rest).Some? then Some([p] + ReadParts(rest).value) else None
  {
    var after := ", " + rest;
    ReadPartFront(p, after);
    assert after != "" && StartsWith(after, ", ") && after[2..] == rest;
  }

  /** The `", "`-join of two or more rendered parts: the first, a separator, the join of the rest. */
  lemma JoinRenderedCons(ps: seq<Part>)
    requires |ps| > 1
    ensures Join(RenderParts(ps), ", ") == RenderPart(ps[0]) + (", " + Join(RenderParts(ps[1..]), ", "))
  {
    assert RenderParts(ps) == [RenderPart(ps[0])] + RenderParts(ps[1..]);
    assert RenderParts(ps)[1..] == RenderParts(ps[1..]);
  }

  /** Reading the `", "`-join of rendered parts gives the parts back. */
  lemma {:induction false} ReadPartsRoundTrip(ps: seq<Part>)
    requires |ps| >= 1
    requires forall k :: 0 <= k < |ps| ==> ps[k].count > 0 && Itemisable(ps[k].severity)
    ensures ReadParts(Join(RenderParts(ps), ", ")) == Some(ps)
    decreases |ps|
  {
    if |ps| == 1 {
      ReadPartsOne(ps);
    } else {
      ReadPartsRoundTrip(ps[1..]);
      ReadPartsMore(ps);
    }
  }

  lemma ReadPartsOne(ps: seq<Part>)
    requires |ps| == 1 && ps[0].count > 0 && Itemisable(ps[0].severity)
    ensures ReadParts(Join(RenderParts(ps), ", ")) == Some(ps)
  {
    ReadPartsSingle(ps[0]);
    assert ps == [ps[0]];
  }

  lemma ReadPartsMore(ps: seq<Part>)
    requires |ps| > 1 && ps[0].count > 0 && Itemisable(ps[0].severity)
    ensures ReadParts(Join(RenderParts(ps[1..]), ", ")) == Some(ps[1..]) ==>
              ReadParts(Join(RenderParts(ps), ", ")) == Some(ps)
  {
    if ReadParts(Join(RenderParts(ps[1..]), ", ")) == Some(ps[1..]) {
      calc {
        ReadParts(Join(RenderParts(ps), ", "));
        == { JoinRenderedCons(ps); }
        ReadParts(RenderPart(ps[0]) + (", " + Join(RenderParts(ps[1..]), ", ")));
        == { ReadPartsCons(ps[0], Join(RenderParts(ps[1..]), ", ")); }
        Some([ps[0]] + ps[1..]);
        == { assert [ps[0]] + ps[1..] == ps; }
        Some(ps);
      }
    }
  }

  /** Anything starting with `"Found "` is read by its remainder. */
  lemma ParseFound(rest: string)
    ensures ParseSummary("Found " + rest) == ReadCounted(rest)
  {
    var s := "Found " + rest;
    assert s[0] == 'F' && NoIssues[0] == 'N';
    assert s[..6] == "Found " && s[6..] == rest;
  }

  /** Reading the `", "`-join of rendered parts, possibly none, gives the parts back. */
  lemma ReadDetailRoundTrip(ps: seq<Part>)
    requires forall k :: 0 <= k < |ps| ==> ps[k].count > 0 && Itemisable(ps[k].severity)
    ensures ReadDetail(Join(RenderParts(ps), ", ")) == Some(ps)
  {
    if |ps| > 0 {
      ReadPartsRoundTrip(ps);
      assert |RenderParts(ps)[0]| > 0;
      if |ps| > 1 {
        assert Join(RenderParts(ps), ", ") == RenderParts(ps)[0] + ", " + Join(RenderParts(ps)[1..], ", ");
      }
    }
  }

  /** Reading a total with its suffix, followed by a detail, gives both back. */
  lemma ReadCountedRoundTrip(n: nat, detail: string)
    requires n > 0
    ensures ReadCounted(NatToString(n) + (" issue" + Plural(n) + ": " + detail))
            == (match ReadDetail(detail) case None => None case Some(ps) => Some(Facts(n, ps)))
  {
    var tail := " issue" + Plural(n) + ": ";
    ReadNatAfterRender(n, tail + detail);
    assert (tail + detail)[..|tail|] == tail;
    assert (tail + detail)[|tail|..] == detail;
  }

  /** Reading a header followed by the rendering of well-formed parts gives both back. */
  lemma ComposedRoundTrip(n: nat, ps: seq<Part>)
    requires n > 0
    requires forall k :: 0 <= k < |ps| ==> ps[k].count > 0 && Itemisable(ps[k].severity)
    ensures ParseSummary(Header(n) + Join(RenderParts(ps), ", ")) == Some(Facts(n, ps))
  {
    ReadDetailRoundTrip(ps);
    ReadAfterHeader(n, Join(RenderParts(ps), ", "));
  }

  /** A header followed by some text is read as the header's total and that text's details. */
  lemma ReadAfterHeader(n: nat, detail: string)
    requires n > 0
    ensures ParseSummary(Header(n) + detail)
            == (match ReadDetail(detail) case None => None case Some(ps) => Some(Facts(n, ps)))
  {
    var counted := NatToString(n) + (" issue" + Plural(n) + ": " + detail);
    calc {
      ParseSummary(Header(n) + detail);
      == { assert Header(n) + detail == "Found " + counted; }
      ParseSummary("Found " + counted);
      == { ParseFound(counted); }
      ReadCounted(counted);
      == { ReadCountedRoundTrip(n, detail); }
      match ReadDetail(detail) case None => None case Some(ps) => Some(Facts(n, ps));
    }
  }

  /** A summary gives back the number of insights and exactly the itemised counts. */
  lemma SummaryRoundTrip(xs: seq<Insight>)
    ensures ParseSummary(GenerateSummary(xs)) == Some(Facts(|xs|, Itemised(xs)))
  {
    if |xs| > 0 {
      ComposedRoundTrip(|xs|, Itemised(xs));
    }
  }

  /** Equal summaries mean equal totals and equal itemised counts. */
  lemma SummaryDeterminesCounts(xs: seq<Insight>, ys: seq<Insight>)
    requires GenerateSummary(xs) == GenerateSummary(ys)
    ensures |xs| == |ys|
    ensures forall s :: Itemisable(s) ==> CountSeverity(xs, s) == CountSeverity(ys, s)
  {
    SummaryRoundTrip(xs);
    SummaryRoundTrip(ys);
    ItemisedDeterminesCounts(xs, ys);
  }

  lemma ItemisedDeterminesCounts(xs: seq<Insight>, ys: seq<Insight>)
    requires Itemised(xs) == Itemised(ys)
    ensures forall s :: Itemisable(s) ==> CountSeverity(xs, s) == CountSeverity(ys, s)
  {
    forall s | Itemisable(s)
      ensures CountSeverity(xs, s) == CountSeverity(ys, s)
    {
      if CountSeverity(xs, s) > 0 {
        var k :| 0 <= k < |Itemised(xs)| && Itemised(xs)[k].severity == s;
      }
    }
  }

  /** The "no issues" message is produced exactly for the empty list. */
  lemma SummaryEmptyIff(xs: seq<Insight>)
    ensures GenerateSummary(xs) == NoIssues <==> |xs| == 0
  {
    if |xs| > 0 {
      assert GenerateSummary(xs)[0] == 'F' && NoIssues[0] == 'N';
    }
  }

  /**
   * A non-empty list's summary starts with `Found N issue`, N the number of
   * insights, and the next character is `s` exactly when N > 1.
   */
  lemma SummaryHeader(xs: seq<Insight>)
    requires |xs| > 0
    ensures var lead := "Found " + NatToString(|xs|) + " issue";
            StartsWith(GenerateSummary(xs), lead)
            && |GenerateSummary(xs)| > |lead|
            && (GenerateSummary(xs)[|lead|] == 's' <==> |xs| > 1)
  {
    HeaderLead(|xs|, Join(RenderParts(Itemised(xs)), ", "));
  }

  lemma HeaderLead(n: nat, detail: string)
    ensures var lead := "Found " + NatToString(n) + " issue";
            StartsWith(Header(n) + detail, lead)
            && |Header(n) + detail| > |lead|
            && ((Header(n) + detail)[|lead|] == 's' <==> n > 1)
  {
    var lead := "Found " + NatToString(n) + " issue";
    var rest := Plural(n) + ": " + detail;
    assert Header(n) + detail == lead + rest;
    assert (lead + rest)[..|lead|] == lead;
    assert (lead + rest)[|lead|] == rest[0];
  }

  /**
   * When nothing is critical, high or medium, nothing follows the colon:
   * low, info and unrecognised severities count only towards the total.
   */
  lemma SummaryWithoutItems(xs: seq<Insight>)
    requires |xs| > 0
    requires CountSeverity(xs, Critical) == 0 && CountSeverity(xs, High) == 0 && CountSeverity(xs, Medium) == 0
    ensures GenerateSummary(xs) == Header(|xs|)
  {
    NoItemFor(xs, Critical);
    NoItemFor(xs, High);
    NoItemFor(xs, Medium);
    assert Join(RenderParts([]), ", ") == "";
  }

  lemma NoItemFor(xs: seq<Insight>, s: Severity)
    requires CountSeverity(xs, s) == 0
    ensures ItemFor(xs, s) == []
  {
  }

  /** A severity appears in the summary's details exactly when it is itemisable and occurs. */
  lemma ItemisedExactly(xs: seq<Insight>, s: Severity)
    ensures (exists k :: 0 <= k < |Itemised(xs)| && Itemised(xs)[k].severity == s)
            <==> Itemisable(s) && CountSeverity(xs, s) > 0
  {
    var r := Itemised(xs);
    if exists k :: 0 <= k < |r| && r[k].severity == s {
      var k :| 0 <= k < |r| && r[k].severity == s;
      assert Itemisable(r[k].severity) && r[k].count > 0;
    }
  }
}

=== FILE: text.dfy ===
/**
 * The JavaScript string primitives the server's helpers rely on, over Dafny strings
 * (sequences of Unicode scalar values): `split` and `join`, `includes`, `startsWith`,
 * `trim`, an ASCII approximation of `toLowerCase`, and decimal rendering of
 * non-negative integers as a template literal `${n}` produces it.
 */
module Text {
  import opened Wrappers

  // ---------------------------------------------------------------------------
  // split / join
  // ---------------------------------------------------------------------------

  /** Number of occurrences of `c` in `s`. */
  function Occurrences(s: string, c: char): nat
  {
    if |s| == 0 then 0 else (if s[0] == c then 1 else 0) + Occurrences(s[1..], c)
  }

  /**
   * `s.split(sep)` for a one-character separator: the maximal separator-free
   * pieces between separators. JavaScript returns one more piece than there are
   * separators, so the empty string splits into `[""]`.
   */
  function Split(s: string, sep: char): (r: seq<string>)
    ensures |r| == Occurrences(s, sep) + 1
    ensures forall i :: 0 <= i < |r| ==> sep !in r[i]
    decreases |s|
  {
    if |s| == 0 then [""]
    else
      var rest := Split(s[1..], sep);
      if s[0] == sep then [""] + rest
      else [[s[0]] + rest[0]] + rest[1..]
  }

  /** `parts.join(sep)`: the parts with `sep` between neighbours. */
  function Join(parts: seq<string>, sep: string): string
  {
    if |parts| == 0 then ""
    else if |parts| == 1 then parts[0]
    else parts[0] + sep + Join(parts[1..], sep)
  }

  /** Joining the pieces of a split with the same separator gives back the input. */
  lemma {:induction false} JoinSplit(s: string, sep: char)
    ensures Join(Split(s, sep), [sep]) == s
    decreases |s|
  {
    if |s| > 0 {
      var rest := Split(s[1..], sep);
      JoinSplit(s[1..], sep);
      if s[0] == sep {
        assert Split(s, sep) == [""] + rest;
        assert s == [sep] + s[1..];
      } else {
        assert Split(s, sep) == [[s[0]] + rest[0]] + rest[1..];
        if |rest| == 1 {
          assert s == [s[0]] + rest[0];
        } else {
          assert Join(rest, [sep]) == rest[0] + [sep] + Join(rest[1..], [sep]);
          assert s == [s[0]] + s[1..];
        }
      }
    }
  }

  /** Splitting `p + rest` where `p` holds no separator glues `p` onto the first piece of `rest`. */
  lemma {:induction false} SplitSeparatorFreePrefix(p: string, rest: string, sep: char)
    requires sep !in p
    ensures Split(p + rest, sep) == [p + Split(rest, sep)[0]] + Split(rest, sep)[1..]
    decreases |p|
  {
    if |p| > 0 {
      SplitSeparatorFreePrefix(p[1..], rest, sep);
      var tail := Split(rest, sep);
      var inner := Split(p[1..] + rest, sep);
      assert (p + rest)[1..] == p[1..] + rest;
      assert (p + rest)[0] == p[0] != sep;
      assert Split(p + rest, sep) == [[p[0]] + inner[0]] + inner[1..];
      assert inner == [p[1..] + tail[0]] + tail[1..];
      assert inner[1..] == tail[1..];
      assert [p[0]] + inner[0] == p + tail[0];
    } else {
      var tail := Split(rest, sep);
      assert p + rest == rest && p + tail[0] == tail[0];
      assert tail == [tail[0]] + tail[1..];
    }
  }

  /** Splitting a join of separator-free parts gives back the parts. */
  lemma {:induction false} SplitJoin(parts: seq<string>, sep: char)
    requires |parts| >= 1
    requires forall i :: 0 <= i < |parts| ==> sep !in parts[i]
    ensures Split(Join(parts, [sep]), sep) == parts
    decreases |parts|
  {
    if |parts| == 1 {
      SplitSeparatorFreePrefix(parts[0], "", sep);
      assert parts[0] + "" == parts[0];
    } else {
      var tail := Join(parts[1..], [sep]);
      SplitJoin(parts[1..], sep);
      assert Join(parts, [sep]) == parts[0] + ([sep] + tail);
      SplitSeparatorFreePrefix(parts[0], [sep] + tail, sep);
      assert ([sep] + tail)[1..] == tail;
      var after := Split([sep] + tail, sep);
      assert after == [""] + parts[1..];
      assert after[0] == "" && after[1..] == parts[1..];
      assert parts[0] + "" == parts[0];
      assert parts == [parts[0]] + parts[1..];
    }
  }

  // ---------------------------------------------------------------------------
  // startsWith / includes
  // ---------------------------------------------------------------------------

  /** `s.startsWith(p)`. */
  predicate StartsWith(s: string, p: string)
  {
    |p| <= |s| && s[..|p|] == p
  }

  /** `sub` occurs in `s` starting at index `i`. */
  predicate OccursAt(s: string, sub: string, i: int)
  {
    0 <= i <= |s| - |sub| && s[i..i + |sub|] == sub
  }

  /** `s.includes(sub)`: `sub` occurs at some position of `s`. */
  predicate Contains(s: string, sub: string)
  {
    exists i :: 0 <= i <= |s| && OccursAt(s, sub, i)
  }

  // ---------------------------------------------------------------------------
  // toLowerCase (ASCII) and trim
  // ---------------------------------------------------------------------------

  /** Lower-case mapping of one character, restricted to the ASCII letters. */
  function LowerChar(c: char): (d: char)
    ensures 'A' <= c <= 'Z' ==> 'a' <= d <= 'z' && d as int == c as int + 32
    ensures !('A' <= c <= 'Z') ==> d == c
  {
    if 'A' <= c <= 'Z' then (c as int + 32) as char else c
  }

  /** No ASCII capital letter occurs in `s`. */
  predicate NoCapitals(s: string)
  {
    forall i :: 0 <= i < |s| ==> !('A' <= s[i] <= 'Z')
  }

  /** The same character, or the same ASCII letter in the other case. */
  predicate SameIgnoringCase(c: char, d: char)
  {
    || c == d
    || ('A' <= c <= 'Z' && d as int == c as int + 32)
    || ('A' <= d <= 'Z' && c as int == d as int + 32)
  }

  /** `sub` occurs in `s` at index `i` when ASCII case is ignored. */
  predicate OccursAtIgnoringCase(s: string, sub: string, i: int)
  {
    0 <= i <= |s| - |sub| && forall j :: 0 <= j < |sub| ==> SameIgnoringCase(s[i + j], sub[j])
  }

  /**
   * `s.toLowerCase()`, approximated by lower-casing the ASCII letters only: the
   * result has no ASCII capitals and matches `s` character by character up to case.
   */
  function ToLower(s: string): (r: string)
    ensures |r| == |s|
    ensures NoCapitals(r)
    ensures forall i :: 0 <= i < |s| ==> SameIgnoringCase(r[i], s[i])
  {
    seq(|s|, i requires 0 <= i < |s| => LowerChar(s[i]))
  }

  /** Lower-casing is idempotent. */
  lemma ToLowerIdempotent(s: string)
    ensures ToLower(ToLower(s)) == ToLower(s)
  {
  }

  /**
   * A keyword without capitals occurs in the lower-cased text exactly where it
   * occurs in the text up to ASCII case: `s.toLowerCase().includes(kw)` is a
   * case-insensitive search.
   */
  lemma ContainsIgnoringCase(s: string, kw: string)
    requires NoCapitals(kw)
    ensures Contains(ToLower(s), kw) <==> exists i :: 0 <= i <= |s| && OccursAtIgnoringCase(s, kw, i)
  {
    var lower := ToLower(s);
    forall i | 0 <= i <= |s|
      ensures OccursAt(lower, kw, i) <==> OccursAtIgnoringCase(s, kw, i)
    {
      if 0 <= i <= |s| - |kw| {
        forall j | 0 <= j < |kw|
          ensures lower[i + j] == kw[j] <==> SameIgnoringCase(s[i + j], kw[j])
        {
        }
        if OccursAtIgnoringCase(s, kw, i) {
          assert lower[i..i + |kw|] == kw;
        }
      }
    }
  }

  /**
   * The characters `String.prototype.trim` removes: ECMAScript's WhiteSpace
   * (tab, vertical tab, form feed, the byte order mark and the space separators)
   * and LineTerminator (line feed, carriage return, U+2028, U+2029).
   */
  predicate IsJsWhitespace(c: char)
  {
    || c == '\t' || c == '\n' || c == '\U{000B}' || c == '\U{000C}' || c == '\r'
    || c == ' ' || c == '\U{00A0}' || c == '\U{1680}'
    || ('\U{2000}' <= c <= '\U{200A}')
    || c == '\U{2028}' || c == '\U{2029}' || c == '\U{202F}' || c == '\U{205F}'
    || c == '\U{3000}' || c == '\U{FEFF}'
  }

  /** Length of the longest all-whitespace prefix of `s`. */
  function LeadingSpace(s: string): (n: nat)
    ensures n <= |s|
    ensures forall i :: 0 <= i < n ==> IsJsWhitespace(s[i])
    ensures n < |s| ==> !IsJsWhitespace(s[n])
  {
    if |s| == 0 || !IsJsWhitespace(s[0]) then 0 else 1 + LeadingSpace(s[1..])
  }

  /** Length of the longest all-whitespace suffix of `s`. */
  function TrailingSpace(s: string): (n: nat)
    ensures n <= |s|
    ensures forall i :: |s| - n <= i < |s| ==> IsJsWhitespace(s[i])
    ensures n < |s| ==> !IsJsWhitespace(s[|s| - n - 1])
  {
    if |s| == 0 || !IsJsWhitespace(s[|s| - 1]) then 0 else 1 + TrailingSpace(s[..|s| - 1])
  }

  /**
   * `s.trim()`: `s` without its leading and trailing whitespace. The result is a
   * contiguous slice of `s` that neither starts nor ends with whitespace, and only
   * whitespace lies outside it.
   */
  function Trim(s: string): (r: string)
    ensures |r| <= |s|
    ensures r == [] || (!IsJsWhitespace(r[0]) && !IsJsWhitespace(r[|r| - 1]))
    ensures exists k :: TrimmedAt(s, r, k)
  {
    var lead := LeadingSpace(s);
    var rest := s[lead..];
    var trail := TrailingSpace(rest);
    var r := rest[..|rest| - trail];
    assert TrimmedAt(s, r, lead);
    r
  }

  /** Trimming keeps every character that is not whitespace, so the result is empty only for all-whitespace text. */
  lemma TrimNonEmpty(s: string, i: int)
    requires 0 <= i < |s| && !IsJsWhitespace(s[i])
    ensures Trim(s) != ""
  {
    var k :| TrimmedAt(s, Trim(s), k);
  }

  /** `r` sits at index `k` of `s`, with only whitespace before and after it. */
  predicate TrimmedAt(s: string, r: string, k: int)
  {
    && 0 <= k <= |s| - |r| && s[k..k + |r|] == r
    && (forall i :: 0 <= i < k ==> IsJsWhitespace(s[i]))
    && (forall i :: k + |r| <= i < |s| ==> IsJsWhitespace(s[i]))
  }

  // ---------------------------------------------------------------------------
  // decimal rendering of non-negative integers
  // ---------------------------------------------------------------------------

  predicate IsDigit(c: char)
  {
    '0' as int <= c as int <= '9' as int
  }

  function DigitChar(d: nat): (c: char)
    requires d < 10
    ensures IsDigit(c) && c as int - '0' as int == d
  {
    (d + '0' as int) as char
  }

  /** Value of a string of decimal digits, most significant first. */
  function DigitsValue(s: string): nat
    requires forall i :: 0 <= i < |s| ==> IsDigit(s[i])
  {
    if |s| == 0 then 0
    else
      var last := s[|s| - 1];
      assert IsDigit(last);
      DigitsValue(s[..|s| - 1]) * 10 + (last as int - '0' as int)
  }

  /** `${n}` for a non-negative integer: its shortest decimal numeral. */
  function NatToString(n: nat): (r: string)
    ensures |r| >= 1
    ensures forall i :: 0 <= i < |r| ==> IsDigit(r[i])
    ensures |r| > 1 ==> r[0] != '0'
    decreases n
  {
    if n < 10 then [DigitChar(n)] else NatToString(n / 10) + [DigitChar(n % 10)]
  }

  /** Reading the rendered numeral back gives the number. */
  lemma {:induction false} NatToStringValue(n: nat)
    ensures DigitsValue(NatToString(n)) == n
    decreases n
  {
    if n >= 10 {
      NatToStringValue(n / 10);
      var r := NatToString(n);
      assert r[..|r| - 1] == NatToString(n / 10);
    }
  }

  /** Two numbers render to the same numeral only if they are equal. */
  lemma NatToStringInjective(m: nat, n: nat)
    requires NatToString(m) == NatToString(n)
    ensures m == n
  {
    NatToStringValue(m);
    NatToStringValue(n);
  }

  /** Length of the longest all-digit prefix of `s`. */
  function DigitRun(s: string): (k: nat)
    ensures k <= |s|
    ensures forall i :: 0 <= i < k ==> IsDigit(s[i])
    ensures k < |s| ==> !IsDigit(s[k])
  {
    if |s| == 0 || !IsDigit(s[0]) then 0 else 1 + DigitRun(s[1..])
  }

  /** Reads a maximal run of digits from the front of `s`: its value and what follows. */
  function ReadNat(s: string): Option<(nat, string)>
  {
    var k := DigitRun(s);
    if k == 0 then None else Some((DigitsValue(s[..k]), s[k..]))
  }

  /** A rendered number followed by a non-digit reads back as that number and that rest. */
  lemma ReadNatAfterRender(n: nat, rest: string)
    requires rest == [] || !IsDigit(rest[0])
    ensures ReadNat(NatToString(n) + rest) == Some((n, rest))
  {
    var d := NatToString(n);
    var s := d + rest;
    var k := DigitRun(s);
    assert forall i :: 0 <= i < |d| ==> s[i] == d[i];
    assert |rest| > 0 ==> s[|d|] == rest[0];
    assert k == |d|;
    assert s[..k] == d && s[k..] == rest;
    NatToStringValue(n);
  }
}

=== FILE: wrappers.dfy ===
/** The optional-value datatype shared by the other modules. */
module Wrappers {

  /** `None` stands for an absent value: a missing map key, a thrown error, `null`. */
  datatype Option<+T> = None | Some(value: T) {

    /** The carried value, or `default` when there is none. */
    function GetOr(default: T): T
    {
      match this
      case Some(v) => v
      case None => default
    }
  }
}
